=== FILE: README.md ===
# Recipe nutrition and substitution engine, in Dafny

This project models the part of a recipe-personalisation app that has real logic in it:

- **Nutrition engine.** This is the `ai-modify` edge function.
  - `calculateNutrition` sums each ingredient's per-100 catalog values, scaled by its quantity. It rounds every total to one decimal and derives per-serving values from the rounded totals.
  - `calculatePercentages` expresses the per-serving values as whole percentages of a disease's daily targets.
  - The `scale` operation multiplies the quantities by a factor and rounds the servings.
  - The `substitute` operation builds the ingredient and allergy lines of its prompt and reads the text-generation reply defensively: a default content, extraction of the `{…}` span, fallbacks on a parse failure and on missing fields.
  - The dispatcher puts these together. Every successful operation returns a recipe together with the report computed on that same recipe.
- **Recipe store.** This is the `recipes` edge function: routing by method, the recipe id taken from the last path segment, and the POST validation chain with its four error messages in order.
- **Client forms.** The recipe form's list-editing handlers and the cleaning it does on submit. The profile form's submit handler, which turns the allergy text into a list.

One module per concern, with the files in dependency order:

- `wrappers.dfy`, `recipes.dfy`: option and result types, and the shared shapes.
- `text.dfy`, `seqs.dfy`, `rounding.dfy`: the JavaScript runtime the source relies on:
  - `trim`, `endsWith`, `split` and `join`;
  - `filter`, spread-append and indexed update;
  - `Math.round`, modelled over exact reals.
- `nutrition.dfy`, `percentages.dfy`, `scaling.dfy`, `reply.dfy`, `prompt.dfy`, `ai_modify.dfy`: the engine.
- `recipes_api.dfy`: the recipe store.
- `recipe_form.dfy`, `form_submission.dfy`, `profile_setup.dfy`: the client forms, and how what the form submits fares against the server's validation.

External calls are parameters:

- `JSON.parse` is `parse: string -> Option<Json>`;
- `Number(text)` is `toNumber: string -> real`;
- number-to-string conversion is `show: real -> string`.

The database reads are inputs: the catalog rows, the target row, and the fetched or posted recipe.

Behaviours of the code worth noting, all modelled as written:

- **Zero targets.** A zero target for a mass nutrient is not skipped. The division is done, and the entry is JavaScript's `Infinity` or `NaN`, which JSON renders as `null`. `Percentages.ZeroTargetIsNotSkipped` states this.
- **Per-serving values.** These are computed from the already rounded totals, not from the exact sums.
- **Scaled servings.** `Math.round(servings * factor)` can be 0, or negative for a negative factor. The `scale` branch of the dispatcher rounds exactly so. The corrected scaling, which keeps at least one serving, is stated separately (see Findings), and `AiModify.ScaleAgreesWithClamped` shows the two agree whenever the source already keeps at least one serving.

## Model

| member | source | states |
|---|---|---|
| Rounding.Round | supabase/functions/ai-modify/index.ts:328 | `Math.round` gives an integer within half of its argument, with halves rounded up |
| Rounding.Round1 | supabase/functions/ai-modify/index.ts:313 | the result is a multiple of 0.1 and lies in (x − 0.05, x + 0.05], which makes it the nearest multiple of 0.1 with halves rounded up |
| Rounding.Round1OnGrid | supabase/functions/ai-modify/index.ts:313 | a value that already has one decimal is left unchanged |
| Rounding.Round1Idempotent | supabase/functions/ai-modify/index.ts:313-314 | rounding an already rounded total again changes nothing |
| Nutrition.NutrientOfKey | supabase/functions/ai-modify/index.ts:283-293 | a key names a nutrient exactly when it is that nutrient's key; every other key names none |
| Nutrition.KeyRoundTrip | supabase/functions/ai-modify/index.ts:283-293 | reading a nutrient's key back gives the same nutrient |
| Nutrition.Lookup | supabase/functions/ai-modify/index.ts:296 | the result is the first catalog entry with exactly the ingredient's name, and is absent iff no entry has that name |
| Nutrition.LookupFirst | supabase/functions/ai-modify/index.ts:296 | when entry i is the first with the name, lookup returns entry i |
| Nutrition.Contribution | supabase/functions/ai-modify/index.ts:296-307 | one ingredient's addition to a nutrient: the first matching entry's value times quantity/100, or nothing when unmatched; its properties are stated by MatchedContribution, FirstMatchContribution and UnmatchedAddsNothing |
| Nutrition.RawTotal | supabase/functions/ai-modify/index.ts:295-309 | the accumulation loop as a running sum over the ingredients in order; RawTotalIsSum, RawTotalAppend and DuplicateCountedTwice state what it computes |
| Nutrition.Contributions | supabase/functions/ai-modify/index.ts:297-307 | one contribution per ingredient, in recipe order |
| Nutrition.RawTotalIsSum | supabase/functions/ai-modify/index.ts:295-309 | the loop's running total equals the sum of the per-ingredient contributions |
| Nutrition.Totals | supabase/functions/ai-modify/index.ts:295-313 | every reported total is that nutrient's exact sum rounded to one decimal |
| Nutrition.PerServing | supabase/functions/ai-modify/index.ts:314 | every per-serving value is the rounded total divided by the servings, rounded to one decimal |
| Nutrition.CalculateNutrition | supabase/functions/ai-modify/index.ts:282-318 | the totals are the exact sums rounded to one decimal, and the per-serving values are derived from those rounded totals |
| Nutrition.RawTotalAppend | supabase/functions/ai-modify/index.ts:295-309 | the total of a concatenation is the sum of the totals: order does not matter and nothing is deduplicated |
| Nutrition.UnmatchedAddsNothing | supabase/functions/ai-modify/index.ts:296-297 | inserting an ingredient that has no catalog entry anywhere leaves every total unchanged |
| Nutrition.MatchedContribution | supabase/functions/ai-modify/index.ts:297-307 | a matched ingredient contributes its entry's value times quantity/100 |
| Nutrition.RawTotalSingle | supabase/functions/ai-modify/index.ts:295-309 | the total of one ingredient is its contribution |
| Nutrition.FirstMatchContribution | supabase/functions/ai-modify/index.ts:296-307 | the contribution uses the first catalog entry with the name, even when later entries share it |
| Nutrition.MatchedAddsScaledEntry | supabase/functions/ai-modify/index.ts:295-309 | inserting a matched ingredient anywhere adds its first entry's value times quantity/100 |
| Nutrition.DuplicateCountedTwice | supabase/functions/ai-modify/index.ts:295-309 | an ingredient listed twice is counted twice |
| Nutrition.UnmatchedRawTotalZero | supabase/functions/ai-modify/index.ts:295-309 | if no ingredient name is in the catalog, every exact total is zero |
| Nutrition.UnmatchedTotalsZero | supabase/functions/ai-modify/index.ts:295-313 | if no ingredient name is in the catalog, every rounded total is zero |
| Nutrition.ZeroPerServing | supabase/functions/ai-modify/index.ts:314 | zero totals give zero per-serving values, whatever the non-zero servings |
| Nutrition.UnmatchedRecipeReportsZero | supabase/functions/ai-modify/index.ts:282-318 | an empty or fully unmatched recipe reports zero everywhere instead of failing |
| Nutrition.TotalWithinRounding | supabase/functions/ai-modify/index.ts:313 | each reported total is within 0.05 of the exact sum |
| Nutrition.PerServingWithinRounding | supabase/functions/ai-modify/index.ts:314 | each per-serving value is within 0.05 of the reported total divided by the servings |
| Percentages.HasMassSuffix | supabase/functions/ai-modify/index.ts:325 | a key ends in `_g`, `_mg` or `_μg`; `Percentages.MassSuffixIffMass` shows that among report keys this picks out exactly the mass nutrients |
| Percentages.Qualifies | supabase/functions/ai-modify/index.ts:325-327 | a target key gets a percentage iff it has a mass suffix and the per-serving report defines it; `Percentages.QualifiesIffMassKey` shows this is membership in the eight mass keys |
| Percentages.PercentOf | supabase/functions/ai-modify/index.ts:328 | a zero target gives a non-finite entry; otherwise the percentage is within half a point of the exact ratio times 100 |
| Percentages.CalculatePercentages | supabase/functions/ai-modify/index.ts:320-334 | the entries are exactly the target keys that are mass keys of the report, each computed from that key's per-serving value and target |
| Percentages.QualifiesIffMassKey | supabase/functions/ai-modify/index.ts:325-327 | a target key passes the suffix test and is defined per serving iff it is one of the eight mass keys |
| Percentages.KeyQualifiesIffMass | supabase/functions/ai-modify/index.ts:325-327 | a report key qualifies iff it is not `calories` |
| Percentages.MassSuffixIffMass | supabase/functions/ai-modify/index.ts:325 | a report key ends in `_g`, `_mg` or `_μg` iff it is not `calories` |
| Percentages.CaloriesNotMass | supabase/functions/ai-modify/index.ts:325 | `calories` ends in none of the mass suffixes |
| Percentages.MassKeyHasSuffix | supabase/functions/ai-modify/index.ts:325 | every report key other than `calories` ends in a mass suffix |
| Percentages.CaloriesAndUnknownKeysOmitted | supabase/functions/ai-modify/index.ts:324-331 | targets for calories, or for a key the report lacks such as `sodium_mg`, get no percentage |
| Percentages.ZeroTargetIsNotSkipped | supabase/functions/ai-modify/index.ts:327-328 | a zero target on a mass key still produces an entry, and that entry is not a number |
| Percentages.PercentageWithinRounding | supabase/functions/ai-modify/index.ts:328 | for a non-zero target, the entry is an integer within half a point of the exact percentage |
| Scaling.EffectiveFactor | supabase/functions/ai-modify/index.ts:134 | a missing or zero factor means 1; any other factor is used as given |
| Scaling.ScaleIngredients | supabase/functions/ai-modify/index.ts:138-141 | same length; each ingredient keeps its name and unit, and its quantity is multiplied by the factor |
| Scaling.ScaleRecipe | supabase/functions/ai-modify/index.ts:135-142 | the title and steps are kept, the ingredients are scaled, and the servings are `Math.round(servings * factor)`, so within half of servings times factor |
| Scaling.ScaledServingsPositiveIff | supabase/functions/ai-modify/index.ts:137 | scaled servings stay at least 1 iff servings times factor is at least one half |
| Scaling.ScaleToZeroServings | supabase/functions/ai-modify/index.ts:137 | one serving scaled by 0.4 becomes 0 servings |
| Scaling.ScaleRecipeClamped | supabase/functions/ai-modify/index.ts:137 | at least one serving; otherwise identical to the source's scaling whenever that already gives at least one |
| Scaling.DefaultFactorIsIdentity | supabase/functions/ai-modify/index.ts:134-142 | without a usable factor, a recipe with whole servings comes back unchanged |
| Scaling.ScaleCompose | supabase/functions/ai-modify/index.ts:138-141 | scaling by f and then by g is scaling by f·g |
| Scaling.ScaleByOne | supabase/functions/ai-modify/index.ts:138-141 | scaling by 1 is the identity |
| Scaling.ScaleRoundTrip | supabase/functions/ai-modify/index.ts:138-141 | scaling by f and then by 1/f gives back the original quantities exactly |
| Scaling.ScaledContribution | supabase/functions/ai-modify/index.ts:140 | a scaled ingredient contributes f times what the original contributes |
| Scaling.ScaledContributions | supabase/functions/ai-modify/index.ts:138-144 | each contribution of the scaled list is f times the original's |
| Scaling.ScaledContributionsSum | supabase/functions/ai-modify/index.ts:138-144 | the scaled contributions sum to f times the original sum |
| Scaling.ScaledRawTotal | supabase/functions/ai-modify/index.ts:138-144 | every exact total of the scaled recipe is f times the original's, passing through the sums of contributions |
| Reply.ContentOrEmptyObject | supabase/functions/ai-modify/index.ts:235 | absent or empty content becomes `{}`; any other content is kept |
| Reply.FirstIndex | supabase/functions/ai-modify/index.ts:239 | the position of the first occurrence of a character, or none if the character does not occur |
| Reply.LastIndex | supabase/functions/ai-modify/index.ts:239 | the position of the last occurrence of a character, or none if the character does not occur |
| Reply.BraceSpan | supabase/functions/ai-modify/index.ts:239 | the match is absent iff no `{` precedes a `}`; otherwise it is the leftmost and, from there, longest `{…}` span |
| Reply.TextToParse | supabase/functions/ai-modify/index.ts:239-240 | the decoder gets the matched span, which starts with `{` and ends with `}`, or the whole content when nothing matches |
| Reply.Interpret | supabase/functions/ai-modify/index.ts:236-251 | a parse failure or a non-object falls back to the original recipe with no substitutions; for an object, each missing field takes its default; `null` is a runtime error |
| Reply.MalformedReplyIsNoChange | supabase/functions/ai-modify/index.ts:241-243 | any unreadable reply leaves the recipe unchanged, with no substitutions |
| Reply.AbsentContentParsesEmptyObject | supabase/functions/ai-modify/index.ts:235 | absent content is decoded as the text `{}` |
| Reply.FramedBraceSpan | supabase/functions/ai-modify/index.ts:239 | with no `{` before the object and no `}` after it, the match is exactly the object's position |
| Reply.ProseAroundObjectIsDropped | supabase/functions/ai-modify/index.ts:239-240 | prose around an object is cut away and the object is decoded, inner braces included |
| Prompt.IngredientLine | supabase/functions/ai-modify/index.ts:178 | the template `- ${quantity} ${unit} ${name}`, with the number printed by the runtime's conversion |
| Prompt.IngredientBlock | supabase/functions/ai-modify/index.ts:178 | the ingredient lines joined with newlines; `Prompt.IngredientBlockLines` shows that the block splits back into exactly those lines |
| Prompt.IngredientLines | supabase/functions/ai-modify/index.ts:178 | one `- quantity unit name` line per ingredient, in recipe order |
| Prompt.IngredientBlockLines | supabase/functions/ai-modify/index.ts:178 | if no field contains a line break, splitting the block on newlines gives exactly the ingredient lines back |
| Prompt.AllergyLine | supabase/functions/ai-modify/index.ts:182-190 | the line is never empty: it is the `, `-joined list, or `none` when the list is absent or joins to nothing |
| Prompt.AllergyLineNone | supabase/functions/ai-modify/index.ts:182 | a present list prints `none` iff it is empty, is one empty entry, or joins to the word `none` |
| AiModify.Respond | supabase/functions/ai-modify/index.ts:144-158 | the response carries the given recipe and targets, and a report and percentages computed on that recipe |
| AiModify.Modify | supabase/functions/ai-modify/index.ts:115-270 | "Invalid operation" iff the operation is unrecognised. Each branch returns its recipe: unchanged, scaled with `Math.round` servings as written, or substituted. Its errors are a missing key, a service failure, an unreadable response body (the 500 of the outer catch, carrying the runtime's message), or a `null` reply. Every success is consistent with its recipe |
| AiModify.ScaleAgreesWithClamped | supabase/functions/ai-modify/index.ts:133-142 | whenever servings times factor is at least one half, the scale branch's recipe is exactly the corrected, clamped scaling |
| AiModify.UnreadableReplyKeepsRecipe | supabase/functions/ai-modify/index.ts:234-256 | an unreadable substitution reply returns the original recipe, no substitutions, and the original recipe's report |
| AiModify.OatsReport | supabase/functions/ai-modify/index.ts:282-318 | 200 g of oats in two servings totals twice the catalog row, and per serving equals the row |
| AiModify.OatsNutrient | supabase/functions/ai-modify/index.ts:282-318 | for each nutrient of that recipe, the total is twice the catalog value and per serving is the catalog value |
| AiModify.ProteinPercentage | supabase/functions/ai-modify/index.ts:320-334 | 13 g of protein per serving against a 50 g target is 26 percent, and no other entry appears |
| RecipesApi.TitleOk | supabase/functions/recipes/index.ts:58 | the title check passes iff a title is present and is not blank after trimming; Validate's contract ties it to "Title is required" |
| RecipesApi.ServingsOk | supabase/functions/recipes/index.ts:68 | the servings check passes iff servings are present and positive |
| RecipesApi.IngredientOk | supabase/functions/recipes/index.ts:79 | the ingredient check passes iff name and unit are present and non-empty and the quantity is present and non-zero |
| RecipesApi.StepOk | supabase/functions/recipes/index.ts:91 | the step check passes iff the step has 10 to 500 Unicode scalar values |
| RecipesApi.FirstFailing | supabase/functions/recipes/index.ts:78-100 | none iff every element passes; otherwise the position of the first element that fails |
| RecipesApi.Validate | supabase/functions/recipes/index.ts:58-100 | accepted iff all four checks pass. Each error message is returned iff its check is the first to fail, in the order title, servings, ingredients, steps |
| RecipesApi.PathSegments | supabase/functions/recipes/index.ts:52 | every segment is a non-empty, slash-free piece of the path split on `/` |
| RecipesApi.RecipeIdOf | supabase/functions/recipes/index.ts:51-53 | a recipe id, when present, is non-empty and contains no `/` |
| RecipesApi.LastPieceIsTrailingSegment | supabase/functions/recipes/index.ts:52 | the last piece of splitting on `/` is everything after the final `/` |
| RecipesApi.RecipeIdIsLastSegment | supabase/functions/recipes/index.ts:51-53 | the id is what follows the last `/` once trailing slashes are dropped, and is absent for a path of only slashes |
| RecipesApi.RouteRequest | supabase/functions/recipes/index.ts:24-200 | POST validates the body. GET fetches one recipe iff the last segment exists and is not `recipes`; every other GET lists them. OPTIONS is the preflight. Methods other than OPTIONS, POST and GET get 405 |
| RecipeForm.InitialForm | src/components/RecipeForm.tsx:15-20 | the untouched form: empty title, four servings, one blank ingredient row and one empty step; `RecipeForm.ReachableFormsHaveRows` and `FormSubmission.InitialFormRefused` state what follows from it |
| RecipeForm.AddIngredient | src/components/RecipeForm.tsx:23-25 | one blank ingredient row is appended; the other rows and fields are unchanged |
| RecipeForm.RemoveIngredient | src/components/RecipeForm.tsx:27-29 | exactly the row at the index is dropped, or nothing when the index is out of range; the other fields are unchanged |
| RecipeForm.UpdateIngredient | src/components/RecipeForm.tsx:31-35 | only the row at the index changes, and it changes only in the edited field |
| RecipeForm.AddStep | src/components/RecipeForm.tsx:37-39 | one empty step is appended; the other steps and fields are unchanged |
| RecipeForm.RemoveStep | src/components/RecipeForm.tsx:41-43 | exactly the step at the index is dropped, or nothing when the index is out of range; the other fields are unchanged |
| RecipeForm.UpdateStep | src/components/RecipeForm.tsx:45-49 | only the step at the index is replaced |
| RecipeForm.ApplyEdit | src/components/RecipeForm.tsx:31-35 | the edited field takes the new value and the other two are kept |
| RecipeForm.Step | src/components/RecipeForm.tsx:23-49 | no interaction empties a non-empty ingredient or step list |
| RecipeForm.ListsNeverEmpty | src/components/RecipeForm.tsx:129-172 | any sequence of interactions keeps both lists non-empty, because remove buttons appear only while a list has more than one row |
| RecipeForm.ReachableFormsHaveRows | src/components/RecipeForm.tsx:16-49 | every form reachable from the initial state has at least one ingredient row and one step row |
| RecipeForm.IngredientFilled | src/components/RecipeForm.tsx:56 | an ingredient is kept iff its name and unit are non-empty and its quantity is non-zero, the three JavaScript truthiness tests |
| RecipeForm.StepFilled | src/components/RecipeForm.tsx:57 | a step is kept iff it has at least 10 Unicode scalar values after trimming |
| RecipeForm.Submit | src/components/RecipeForm.tsx:51-59 | the submitted ingredients are exactly the filled rows and the submitted steps exactly those of at least 10 characters after trimming; title and servings pass through |
| RecipeForm.SubmitKeepsOrder | src/components/RecipeForm.tsx:56-57 | the cleaning keeps relative order: the rows kept from two halves are those of the first half, then those of the second |
| RecipeForm.BlankRowsAreDropped | src/components/RecipeForm.tsx:24-57 | adding a blank ingredient or step does not change what is submitted |
| FormSubmission.AsPayload | src/components/RecipeForm.tsx:53-58 | the posted body carries every field of the submitted recipe, ingredient by ingredient |
| FormSubmission.SubmittedIngredientsPass | supabase/functions/recipes/index.ts:78-88 | every ingredient the form submits passes the server's ingredient check |
| FormSubmission.SubmittedStepsLongEnough | supabase/functions/recipes/index.ts:90-91 | every step the form submits meets the server's lower length bound |
| FormSubmission.SubmittedRecipeAcceptedIff | supabase/functions/recipes/index.ts:58-100 | the server accepts what the form submits iff the title is not blank, servings are positive and no kept step exceeds 500 characters |
| FormSubmission.InitialFormRefused | supabase/functions/recipes/index.ts:58-66 | if the handler's output for the untouched form were posted, it would be refused with "Title is required"; in a browser the `required` title input (RecipeForm.tsx line 71) stops that submit before the handler runs |
| ProfileSetup.TrimAll | src/components/ProfileSetup.tsx:20 | each piece is trimmed, in place |
| ProfileSetup.ParseAllergies | src/components/ProfileSetup.tsx:20 | empty text gives no allergies. Other text gives one trimmed entry per comma-separated piece, so one more entry than it has commas |
| ProfileSetup.InitialProfileForm | src/components/ProfileSetup.tsx:9-12 | the untouched profile form: type 1 diabetes, empty age text, sex `other`, empty allergy text; `ProfileSetup.InitialProfile` states what it submits |
| ProfileSetup.SubmitProfile | src/components/ProfileSetup.tsx:14-22 | disease and sex pass through; age is absent iff its text is empty; allergies are the parsed list |
| ProfileSetup.InitialProfile | src/components/ProfileSetup.tsx:9-22 | the untouched form submits type 1 diabetes, sex `other`, no age and an empty allergy list |
| ProfileSetup.ParseAllergiesSnoc | src/components/ProfileSetup.tsx:20 | appending `,` and a piece appends that piece, trimmed |
| ProfileSetup.ParseAllergiesIsTrimAll | src/components/ProfileSetup.tsx:20 | non-empty text parses to its comma-separated pieces, each trimmed |
| ProfileSetup.NutsAndShellfish | src/components/ProfileSetup.tsx:20 | `nuts, shellfish` gives `nuts` and `shellfish` |
| ProfileSetup.EmptyPiecesKept | src/components/ProfileSetup.tsx:20 | `a,,b` gives three entries, the middle one empty |
| ProfileSetup.ParseJoinedAllergies | src/components/ProfileSetup.tsx:20 | joining non-empty, trimmed, comma-free allergies with `, ` and parsing the result gives the list back |
| ProfileSetup.AllergyLineRoundTrip | supabase/functions/ai-modify/index.ts:182 | the prompt's allergy line for a submitted profile parses back to the profile's list when that list has no empty entry |
| Text.IsWhitespace | src/components/RecipeForm.tsx:57 | exactly the WhiteSpace and LineTerminator code points of sections 12.2 and 12.3 of ECMA-262, the set `trim` removes; `Text.TrimCutsWhitespace` shows that only these are cut |
| Text.Trim | src/components/RecipeForm.tsx:57 | the result is no longer than the input and has whitespace at neither end |
| Text.TrimIsSlice | src/components/RecipeForm.tsx:57 | the trimmed text is the slice of the input that starts after the leading whitespace |
| Text.TrimCutsWhitespace | src/components/RecipeForm.tsx:57 | only whitespace lies on either side of the trimmed slice |
| Text.TrimIdempotent | src/components/ProfileSetup.tsx:20 | trimming twice is trimming once |
| Text.TrimPadded | src/components/ProfileSetup.tsx:20 | whitespace added in front of a trimmed string is removed again |
| Text.EndsWith | supabase/functions/ai-modify/index.ts:325 | `endsWith`: the last characters of the string are the suffix, one by one; MassSuffixIffMass and CaloriesNotMass apply it to the report keys |
| Text.Join | supabase/functions/ai-modify/index.ts:182 | `join`: the pieces with the separator between neighbours; JoinSplit and SplitJoin make it the inverse of Split |
| Text.Split | src/components/ProfileSetup.tsx:20 | one more piece than there are separators, and no piece contains the separator |
| Text.SplitAtSeparator | src/components/ProfileSetup.tsx:20 | the pieces of `a + sep + b` are the pieces of `a` followed by those of `b` |
| Text.JoinSplit | src/components/ProfileSetup.tsx:20 | joining the pieces with the separator gives the string back |
| Text.SplitJoin | supabase/functions/ai-modify/index.ts:178 | splitting a join of separator-free pieces gives the pieces back |
| Seqs.Filter | src/components/RecipeForm.tsx:56-57 | the result holds exactly the elements that satisfy the predicate |
| Seqs.FilterAppend | src/components/RecipeForm.tsx:56-57 | filtering distributes over concatenation, so relative order is kept |
| Seqs.FilterKeepsAll | src/components/RecipeForm.tsx:56-57 | filtering leaves a list unchanged iff every element satisfies the predicate |
| Seqs.RemoveAt | src/components/RecipeForm.tsx:27-29 | exactly the element at the index is dropped; an index out of range changes nothing |
| Seqs.Append | src/components/RecipeForm.tsx:23-25 | the old elements are kept and one element is added at the end |
| Seqs.UpdateAt | src/components/RecipeForm.tsx:31-35 | only the element at the index changes |
| Seqs.SumScaled | supabase/functions/ai-modify/index.ts:295-309 | multiplying every term by f multiplies the sum by f |

## Left out

- HTTP, CORS headers, authentication and the database queries are not modelled. Their results are inputs: the catalog rows, the target row, and the fetched or posted recipe. The 401, 404 and 500 answers that come from these steps are not modelled. Neither is the 400 "Either recipeId or recipePayload is required" that `ai-modify` returns before dispatch when the request carries neither field; an unrecognised operation without a recipe gets that 400, not "Invalid operation".
- The call to the text-generation service is not modelled. It is reduced to its four outcomes: no key configured, a non-success response, a success response whose body cannot be read (not JSON, or without a `choices` array), or a reply whose content may be absent. For the unreadable body, the text of the runtime's error message is a parameter.
- The fixed wording of the prompt is not modelled. Neither are the lines that interpolate the title, the servings and the disease (`ai-modify/index.ts` lines 175, 176, 181 and 189), nor the target and catalog-name lines that `JSON.stringify` and `map(n => n.name)` produce. Only the ingredient and allergy lines (lines 178, 182 and 190) are modelled.
- `JSON.parse`, `Number(text)` and number-to-string conversion are not modelled: they are parameters.
- Fields of the wrong JSON type in request bodies, and in `JSON.parse` output, are not modelled.
- Numbers are exact reals. IEEE-754 rounding error, `NaN` and the infinities are not modelled, except that a division by a zero target is represented as a non-finite percentage.
- Nutrition.CalculateNutrition, AiModify.Respond: require non-zero servings, because the per-serving division by zero yields `Infinity` or `NaN`, which reals cannot represent. The source still answers such a recipe, with `null` per-serving values in the JSON.
- Nutrition.PerServing: the same requirement, for the same reason.
- AiModify.Modify: requires non-zero servings for `map_nutrients` and for a readable substitution reply, and requires that `Math.round(servings * factor)` is not zero for `scale`, for the same reason. The zero-servings case of `scale` is the defect recorded under Findings.
- RecipeForm.StepFilled, RecipeForm.Submit: the kept-step test counts the trimmed step's Unicode scalar values, while `s.trim().length` counts UTF-16 code units. A step of five emoji has length 10 in JavaScript and is kept there, but is dropped here.
- RecipesApi.StepOk, RecipesApi.Validate: step lengths count Unicode scalar values, while JavaScript's `length` counts UTF-16 code units. They differ only for characters outside the Basic Multilingual Plane.
- The rendering and styling in `RecipeForm.tsx` and `ProfileSetup.tsx` are left out: the markup and the `onChange` wiring. Only the rule that a remove button appears only while its list has more than one row is kept.
- `App.tsx`, `RecipeAnalysis.tsx` and the rest of the client are not part of this model.
- The bound that per-serving value times servings is within 0.1 of the total is not stated in that multiplied form. `Nutrition.PerServingWithinRounding` states the corresponding bound on the division.

## Findings

| source | as written | input that shows it | evidently intended | confidence | as-written member | corrected member |
|---|---|---|---|---|---|---|
| supabase/functions/ai-modify/index.ts:137 | `servings: Math.round(recipe.servings * scaleFactor)` can be 0 | one serving with factor 0.4 gives `Math.round(0.4) = 0`, and the per-serving division then divides by zero | the scaled recipe keeps at least one serving | not executed | Scaling.ScaleToZeroServings | Scaling.ScaleRecipeClamped |

=== FILE: ai_modify.dfy ===
/** The `ai-modify` function once the request is read and the reference data fetched:
    each operation yields a recipe and the report computed on that same recipe. */
module AiModify {
  import opened Wrappers
  import opened Rounding
  import opened Recipes
  import opened Nutrition
  import opened Percentages
  import opened Scaling
  import opened Reply

  datatype Operation = MapNutrients | Scale | Substitute | Unrecognized

  /** What the substitution branch got from its configuration and the remote call:
      no API key; a non-success response; a success response whose body cannot be
      read, because it is not JSON or has no `choices` array, so that the runtime
      throws with `message`; or a reply whose content may be absent. */
  datatype ServiceReply = KeyMissing | ServiceFailed | BodyUnreadable(message: string) | Replied(content: Option<string>)

  datatype ModifyError = InvalidOperation | NotConfigured | AiServiceError | RuntimeError(message: string)

  /** The engine's single result shape. */
  datatype ModificationResult = ModificationResult(
    recipe: Recipe,
    nutrition: NutritionReport,
    targets: map<string, real>,
    percentages: map<string, Percentage>,
    substitutions: Option<seq<Substitution>>)

  /** The report belongs to the recipe returned with it, against the given catalog and targets. */
  predicate Consistent(res: ModificationResult, catalog: seq<CatalogEntry>) {
    && res.recipe.servings != 0.0
    && res.nutrition == CalculateNutrition(res.recipe, catalog)
    && res.percentages == CalculatePercentages(res.nutrition.perServing, res.targets)
  }

  /** The response body every successful branch builds. */
  function Respond(recipe: Recipe, catalog: seq<CatalogEntry>, targets: map<string, real>,
                   substitutions: Option<seq<Substitution>>): (r: ModificationResult)
    requires recipe.servings != 0.0
    ensures Consistent(r, catalog)
    ensures r.recipe == recipe && r.targets == targets && r.substitutions == substitutions
  {
    var nutrition := CalculateNutrition(recipe, catalog);
    ModificationResult(recipe, nutrition, targets, CalculatePercentages(nutrition.perServing, targets), substitutions)
  }

  /** A readable substitution reply leads to a recipe with non-zero servings. */
  predicate SubstitutedServingsNonZero(content: Option<string>, parse: Parser, recipe: Recipe) {
    match Interpret(content, parse, recipe)
    case Ok(i) => i.recipe.servings != 0.0
    case Err(_) => true
  }

  /** The dispatcher: `map_nutrients`, `scale` and `substitute`, then "Invalid operation".
      The stored targets default to the empty map. Scaling rounds the servings as the
      source does, so a recipe whose scaled servings round to zero is outside its domain. */
  function Modify(op: Operation, recipe: Recipe, catalog: seq<CatalogEntry>, targetsRow: Option<map<string, real>>,
                  scaleFactor: Option<real>, reply: ServiceReply, parse: Parser): (r: Result<ModificationResult, ModifyError>)
    requires op == MapNutrients ==> recipe.servings != 0.0
    requires op == Scale ==> Round(recipe.servings * EffectiveFactor(scaleFactor)) != 0
    requires op == Substitute && reply.Replied? ==> SubstitutedServingsNonZero(reply.content, parse, recipe)
    ensures r.Ok? ==> Consistent(r.value, catalog) && r.value.targets == targetsRow.GetOr(map[])
    ensures r == Err(InvalidOperation) <==> op == Unrecognized
    ensures op == MapNutrients ==> r.Ok? && r.value.recipe == recipe && r.value.substitutions.None?
    ensures op == Scale ==> r.Ok? && r.value.substitutions.None?
                            && r.value.recipe == ScaleRecipe(recipe, EffectiveFactor(scaleFactor))
    ensures op == Substitute ==> (r == Err(NotConfigured) <==> reply.KeyMissing?)
    ensures op == Substitute ==> (r == Err(AiServiceError) <==> reply.ServiceFailed?)
    ensures op == Substitute && reply.BodyUnreadable? ==> r == Err(RuntimeError(reply.message))
    ensures op == Substitute && reply.Replied? ==>
              match Interpret(reply.content, parse, recipe)
              case Ok(i) => r.Ok? && r.value.recipe == i.recipe && r.value.substitutions == Some(i.substitutions)
              case Err(e) => r == Err(RuntimeError(e))
  {
    var targets := targetsRow.GetOr(map[]);
    match op
    case MapNutrients => Ok(Respond(recipe, catalog, targets, None))
    case Scale =>
      Ok(Respond(ScaleRecipe(recipe, EffectiveFactor(scaleFactor)), catalog, targets, None))
    case Substitute =>
      (match reply
       case KeyMissing => Err(NotConfigured)
       case ServiceFailed => Err(AiServiceError)
       case BodyUnreadable(message) => Err(RuntimeError(message))
       case Replied(content) =>
         match Interpret(content, parse, recipe)
         case Ok(i) => Ok(Respond(i.recipe, catalog, targets, Some(i.substitutions)))
         case Err(e) => Err(RuntimeError(e)))
    case Unrecognized => Err(InvalidOperation)
  }

  /** A reply the decoder cannot read returns the original recipe, no substitutions,
      and the original recipe's report. */
  lemma UnreadableReplyKeepsRecipe(recipe: Recipe, catalog: seq<CatalogEntry>, targetsRow: Option<map<string, real>>,
                                   content: Option<string>, parse: Parser)
    requires recipe.servings != 0.0
    requires parse(TextToParse(content)).None?
    ensures var r := Modify(Substitute, recipe, catalog, targetsRow, None, Replied(content), parse);
            && r.Ok?
            && r.value.recipe == recipe
            && r.value.substitutions == Some([])
            && r.value.nutrition == CalculateNutrition(recipe, catalog)
  {
  }

  /** Wherever the source's rounding keeps at least one serving, the scale branch
      returns exactly the corrected, clamped scaling. */
  lemma ScaleAgreesWithClamped(recipe: Recipe, catalog: seq<CatalogEntry>, targetsRow: Option<map<string, real>>,
                               scaleFactor: Option<real>, reply: ServiceReply, parse: Parser)
    requires recipe.servings * EffectiveFactor(scaleFactor) >= 0.5
    ensures Round(recipe.servings * EffectiveFactor(scaleFactor)) != 0
    ensures Modify(Scale, recipe, catalog, targetsRow, scaleFactor, reply, parse).Ok?
    ensures Modify(Scale, recipe, catalog, targetsRow, scaleFactor, reply, parse).value.recipe
         == ScaleRecipeClamped(recipe, EffectiveFactor(scaleFactor))
  {
    ScaledServingsPositiveIff(recipe, EffectiveFactor(scaleFactor));
  }

  const Oats: CatalogEntry := CatalogEntry("oats", Vector(380.0, 13.0, 67.0, 7.0, 10.0, 50.0, 4.0, 0.0, 0.1))

  const OatsRecipe: Recipe :=
    Recipe("Oats", 2.0, [Ingredient("oats", 200.0, "g")], ["Cook oats thoroughly in water for five minutes."])

  /** 200 g of oats in two servings: twice the catalog row in total, the row itself per serving. */
  lemma OatsReport()
    ensures CalculateNutrition(OatsRecipe, [Oats])
         == NutritionReport(Vector(760.0, 26.0, 134.0, 14.0, 20.0, 100.0, 8.0, 0.0, 0.2),
                            Oats.per100)
  {
    var r := CalculateNutrition(OatsRecipe, [Oats]);
    var doubled := Vector(760.0, 26.0, 134.0, 14.0, 20.0, 100.0, 8.0, 0.0, 0.2);
    forall n ensures r.total.Get(n) == doubled.Get(n) && r.perServing.Get(n) == Oats.per100.Get(n) {
      OatsNutrient(n);
    }
    VectorsEqual(r.total, doubled);
    VectorsEqual(r.perServing, Oats.per100);
  }

  /** One nutrient of the oats report: the raw total is twice the catalog value, which is
      already on the one-decimal grid, and so is its half. */
  lemma OatsNutrient(n: Nutrient)
    ensures var r := CalculateNutrition(OatsRecipe, [Oats]);
            && r.total.Get(n) == 2.0 * Oats.per100.Get(n)
            && r.perServing.Get(n) == Oats.per100.Get(n)
  {
    var ing := OatsRecipe.ingredients[0];
    assert OatsRecipe.ingredients == [ing];
    RawTotalSingle(ing, [Oats], n);
    LookupFirst([Oats], "oats", 0);
    MatchedContribution(ing, [Oats], n, Oats);
    var v := Oats.per100.Get(n);
    var tenths := match n
      case Calories => 3800 case Protein => 130 case Carbs => 670 case Fat => 70 case Fiber => 100
      case Calcium => 500 case Iron => 40 case VitaminD => 0 case Omega3 => 1;
    assert v == tenths as real / 10.0;
    Round1OnGrid(2 * tenths);
    assert 2.0 * v == (2 * tenths) as real / 10.0;
    Round1OnGrid(tenths);
    assert 2.0 * v / 2.0 == v;
  }

  /** A protein target of 50 g against 13 g per serving is 26 percent. */
  lemma ProteinPercentage()
    ensures CalculatePercentages(Oats.per100, map["protein_g" := 50.0]) == map["protein_g" := Finite(26)]
  {
    var targets := map["protein_g" := 50.0];
    QualifiesIffMassKey("protein_g");
    var r := CalculatePercentages(Oats.per100, targets);
    assert r.Keys == {"protein_g"};
    assert Round(13.0 / 50.0 * 100.0) == 26;
  }
}

=== FILE: form_submission.dfy ===
/** What the recipe form submits, read by the server's validation chain:
    the form's cleaning guarantees the ingredient check and the lower step bound. */
module FormSubmission {
  import opened Wrappers
  import opened Text
  import opened Recipes
  import opened RecipeForm
  import opened RecipesApi

  /** The JSON body the client posts: every field present. */
  function AsPayload(r: Recipe): (p: RecipePayload)
    ensures p.title == Some(r.title) && p.servings == Some(r.servings) && p.steps == Some(r.steps)
    ensures p.ingredients.Some? && |p.ingredients.value| == |r.ingredients|
    ensures forall i :: 0 <= i < |r.ingredients| ==>
              p.ingredients.value[i] == IngredientPayload(Some(r.ingredients[i].name), Some(r.ingredients[i].quantity), Some(r.ingredients[i].unit))
  {
    RecipePayload(
      Some(r.title), Some(r.servings),
      Some(seq(|r.ingredients|, i requires 0 <= i < |r.ingredients| =>
        IngredientPayload(Some(r.ingredients[i].name), Some(r.ingredients[i].quantity), Some(r.ingredients[i].unit)))),
      Some(r.steps))
  }

  /** Every ingredient the form keeps passes the server's ingredient check. */
  lemma SubmittedIngredientsPass(f: FormState)
    ensures var ings := AsPayload(Submit(f)).ingredients.value;
            forall i :: 0 <= i < |ings| ==> IngredientOk(ings[i])
  {
  }

  /** Every step the form keeps meets the server's lower length bound, since trimming only shortens. */
  lemma SubmittedStepsLongEnough(f: FormState)
    ensures forall i :: 0 <= i < |Submit(f).steps| ==> |Submit(f).steps[i]| >= 10
  {
    var steps := Submit(f).steps;
    forall i | 0 <= i < |steps| ensures |steps[i]| >= 10 {
      assert StepFilled(steps[i]);
      assert |Trim(steps[i])| <= |steps[i]|;
    }
  }

  /** The server accepts what the form submits exactly when the title is not blank,
      the servings are positive and no kept step is longer than 500 characters:
      the ingredient check and the lower step bound can no longer fail. */
  lemma SubmittedRecipeAcceptedIff(f: FormState)
    ensures Validate(AsPayload(Submit(f))) == Accepted <==>
              && |Trim(f.title)| != 0
              && f.servings > 0.0
              && forall i :: 0 <= i < |Submit(f).steps| ==> |Submit(f).steps[i]| <= 500
  {
    var r := Submit(f);
    var p := AsPayload(r);
    SubmittedIngredientsPass(f);
    SubmittedStepsLongEnough(f);
    assert TitleOk(p.title) <==> |Trim(f.title)| != 0;
    assert ServingsOk(p.servings) <==> f.servings > 0.0;
    assert p.steps.GetOr([]) == r.steps;
    assert (forall i :: 0 <= i < |r.steps| ==> StepOk(r.steps[i]))
       <==> (forall i :: 0 <= i < |r.steps| ==> |r.steps[i]| <= 500);
  }

  /** If the handler's output for the untouched form were posted as it is, the server
      would refuse it for its empty title. In a browser the title input is `required`,
      so that submit never reaches the handler. */
  lemma InitialFormRefused()
    ensures Validate(AsPayload(Submit(InitialForm))) == Rejected(TitleRequired)
  {
    assert Trim("") == "";
  }
}

=== FILE: nutrition.dfy ===
/** The nutrition engine's aggregator: per-100 catalog values scaled by each
    ingredient's quantity, summed over the recipe, rounded to one decimal,
    and divided by the servings. */
module Nutrition {
  import opened Wrappers
  import opened Rounding
  import opened Recipes
  import opened Seqs

  /** The nine nutrients the engine totals, in the order of its totals record. */
  datatype Nutrient = Calories | Protein | Carbs | Fat | Fiber | Calcium | Iron | VitaminD | Omega3

  /** The JSON key of each nutrient, as used by the catalog, the report and the targets. */
  function Key(n: Nutrient): string {
    match n
    case Calories => "calories"
    case Protein => "protein_g"
    case Carbs => "carbs_g"
    case Fat => "fat_g"
    case Fiber => "fiber_g"
    case Calcium => "calcium_mg"
    case Iron => "iron_mg"
    case VitaminD => "vitamin_d_\U{03BC}g"
    case Omega3 => "omega3_g"
  }

  /** The nutrient a report key names, if any: a report has exactly the nine keys. */
  function NutrientOfKey(key: string): (r: Option<Nutrient>)
    ensures r.Some? ==> Key(r.value) == key
    ensures r.None? ==> forall n: Nutrient :: Key(n) != key
  {
    if key == "calories" then Some(Calories)
    else if key == "protein_g" then Some(Protein)
    else if key == "carbs_g" then Some(Carbs)
    else if key == "fat_g" then Some(Fat)
    else if key == "fiber_g" then Some(Fiber)
    else if key == "calcium_mg" then Some(Calcium)
    else if key == "iron_mg" then Some(Iron)
    else if key == "vitamin_d_\U{03BC}g" then Some(VitaminD)
    else if key == "omega3_g" then Some(Omega3)
    else None
  }

  /** Reading a nutrient's key back gives the nutrient. */
  lemma KeyRoundTrip(n: Nutrient)
    ensures NutrientOfKey(Key(n)) == Some(n)
  {
  }

  /** One value per nutrient. */
  datatype Vector = Vector(calories: real, protein: real, carbs: real, fat: real, fiber: real,
                           calcium: real, iron: real, vitaminD: real, omega3: real)
  {
    function Get(n: Nutrient): real {
      match n
      case Calories => calories
      case Protein => protein
      case Carbs => carbs
      case Fat => fat
      case Fiber => fiber
      case Calcium => calcium
      case Iron => iron
      case VitaminD => vitaminD
      case Omega3 => omega3
    }
  }

  /** The vector whose value at every nutrient is `f` of that nutrient. */
  function Tabulate(f: Nutrient -> real): (v: Vector)
    ensures forall n :: v.Get(n) == f(n)
  {
    Vector(f(Calories), f(Protein), f(Carbs), f(Fat), f(Fiber), f(Calcium), f(Iron), f(VitaminD), f(Omega3))
  }

  const Zero: Vector := Vector(0.0, 0.0, 0.0, 0.0, 0.0, 0.0, 0.0, 0.0, 0.0)

  /** A row of the ingredient catalog: nutrient values per 100 units of `name`. */
  datatype CatalogEntry = CatalogEntry(name: string, per100: Vector)

  /** The report: rounded totals for the whole recipe and rounded values per serving. */
  datatype NutritionReport = NutritionReport(total: Vector, perServing: Vector)

  /** `nutrients.find(n => n.name === name)`: the first catalog entry with exactly that name. */
  function Lookup(catalog: seq<CatalogEntry>, name: string): (r: Option<CatalogEntry>)
    ensures r.None? <==> forall i :: 0 <= i < |catalog| ==> catalog[i].name != name
    ensures r.Some? ==> exists i :: 0 <= i < |catalog| && catalog[i] == r.value && catalog[i].name == name
                                    && forall j :: 0 <= j < i ==> catalog[j].name != name
  {
    if |catalog| == 0 then None
    else if catalog[0].name == name then Some(catalog[0])
    else
      var r := Lookup(catalog[1..], name);
      if r.Some? then
        assert forall j :: 1 <= j < |catalog| ==> catalog[j] == catalog[1..][j - 1];
        r
      else r
  }

  /** What one ingredient adds to a nutrient's total: the catalog value times `quantity / 100`,
      or nothing when the name has no catalog entry. */
  function Contribution(ing: Ingredient, catalog: seq<CatalogEntry>, n: Nutrient): real {
    match Lookup(catalog, ing.name)
    case None => 0.0
    case Some(entry) => entry.per100.Get(n) * (ing.quantity / 100.0)
  }

  /** The unrounded total of a nutrient: the loop's running sum over the ingredients in order. */
  function RawTotal(ings: seq<Ingredient>, catalog: seq<CatalogEntry>, n: Nutrient): real {
    if |ings| == 0 then 0.0
    else RawTotal(ings[..|ings| - 1], catalog, n) + Contribution(ings[|ings| - 1], catalog, n)
  }

  /** What each ingredient contributes to one nutrient, in order. */
  function Contributions(ings: seq<Ingredient>, catalog: seq<CatalogEntry>, n: Nutrient): (r: seq<real>)
    ensures |r| == |ings|
    ensures forall i :: 0 <= i < |ings| ==> r[i] == Contribution(ings[i], catalog, n)
  {
    seq(|ings|, i requires 0 <= i < |ings| => Contribution(ings[i], catalog, n))
  }

  /** The running sum is the sum of the contributions. */
  lemma {:induction false} RawTotalIsSum(ings: seq<Ingredient>, catalog: seq<CatalogEntry>, n: Nutrient)
    ensures RawTotal(ings, catalog, n) == Sum(Contributions(ings, catalog, n))
  {
    if |ings| > 0 {
      var k := |ings| - 1;
      var c := Contributions(ings, catalog, n);
      RawTotalIsSum(ings[..k], catalog, n);
      assert c[..k] == Contributions(ings[..k], catalog, n);
    }
  }

  /** The first loop of `calculateNutrition` followed by rounding: each total is the raw sum
      rounded to one decimal. */
  function Totals(ings: seq<Ingredient>, catalog: seq<CatalogEntry>): (v: Vector)
    ensures forall n :: v.Get(n) == Round1(RawTotal(ings, catalog, n))
  {
    Tabulate(n => Round1(RawTotal(ings, catalog, n)))
  }

  /** Per-serving values: each ROUNDED total divided by the servings and rounded again. */
  function PerServing(total: Vector, servings: real): (v: Vector)
    requires servings != 0.0
    ensures forall n :: v.Get(n) == Round1(total.Get(n) / servings)
  {
    Tabulate(n => Round1(total.Get(n) / servings))
  }

  /** `calculateNutrition`: the report on a recipe against the catalog. */
  function CalculateNutrition(recipe: Recipe, catalog: seq<CatalogEntry>): (r: NutritionReport)
    requires recipe.servings != 0.0
    ensures r.total == Totals(recipe.ingredients, catalog)
    ensures r.perServing == PerServing(r.total, recipe.servings)
  {
    var total := Totals(recipe.ingredients, catalog);
    NutritionReport(total, PerServing(total, recipe.servings))
  }

  /** The raw total of a concatenation is the sum of the raw totals: order does
      not matter and nothing is deduplicated. */
  lemma {:induction false} RawTotalAppend(a: seq<Ingredient>, b: seq<Ingredient>, catalog: seq<CatalogEntry>, n: Nutrient)
    ensures RawTotal(a + b, catalog, n) == RawTotal(a, catalog, n) + RawTotal(b, catalog, n)
  {
    if |b| == 0 {
      assert a + b == a;
    } else {
      var b' := b[..|b| - 1];
      assert (a + b)[..|a + b| - 1] == a + b';
      assert (a + b)[|a + b| - 1] == b[|b| - 1];
      RawTotalAppend(a, b', catalog, n);
    }
  }

  /** Inserting an ingredient with no catalog entry anywhere in the list changes no total. */
  lemma UnmatchedAddsNothing(a: seq<Ingredient>, ing: Ingredient, b: seq<Ingredient>, catalog: seq<CatalogEntry>, n: Nutrient)
    requires forall i :: 0 <= i < |catalog| ==> catalog[i].name != ing.name
    ensures RawTotal(a + [ing] + b, catalog, n) == RawTotal(a + b, catalog, n)
  {
    RawTotalAppend(a + [ing], b, catalog, n);
    RawTotalAppend(a, [ing], catalog, n);
    RawTotalAppend(a, b, catalog, n);
    assert [ing][..0] == [];
  }

  /** The catalog lookup returns the first entry with the name. */
  lemma {:induction false} LookupFirst(catalog: seq<CatalogEntry>, name: string, i: nat)
    requires i < |catalog| && catalog[i].name == name
    requires forall j :: 0 <= j < i ==> catalog[j].name != name
    ensures Lookup(catalog, name) == Some(catalog[i])
  {
    if i > 0 {
      LookupFirst(catalog[1..], name, i - 1);
    }
  }

  /** A matched ingredient contributes its entry's value times `quantity / 100`. */
  lemma MatchedContribution(ing: Ingredient, catalog: seq<CatalogEntry>, n: Nutrient, entry: CatalogEntry)
    requires Lookup(catalog, ing.name) == Some(entry)
    ensures Contribution(ing, catalog, n) == entry.per100.Get(n) * (ing.quantity / 100.0)
  {
  }

  /** The raw total of a one-ingredient list is that ingredient's contribution. */
  lemma RawTotalSingle(ing: Ingredient, catalog: seq<CatalogEntry>, n: Nutrient)
    ensures RawTotal([ing], catalog, n) == Contribution(ing, catalog, n)
  {
    assert [ing][..0] == [];
  }

  /** Inserting a matched ingredient adds its first catalog entry's value times
      `quantity / 100` to the total, wherever it is inserted. */
  lemma MatchedAddsScaledEntry(a: seq<Ingredient>, ing: Ingredient, b: seq<Ingredient>, catalog: seq<CatalogEntry>, n: Nutrient, i: nat)
    requires i < |catalog| && catalog[i].name == ing.name
    requires forall j :: 0 <= j < i ==> catalog[j].name != ing.name
    ensures RawTotal(a + [ing] + b, catalog, n)
         == RawTotal(a + b, catalog, n) + catalog[i].per100.Get(n) * (ing.quantity / 100.0)
  {
    RawTotalAppend(a + [ing], b, catalog, n);
    RawTotalAppend(a, [ing], catalog, n);
    RawTotalAppend(a, b, catalog, n);
    RawTotalSingle(ing, catalog, n);
    FirstMatchContribution(ing, catalog, n, i);
  }

  /** An ingredient whose first catalog match is entry `i` contributes that entry's value times `quantity / 100`. */
  lemma FirstMatchContribution(ing: Ingredient, catalog: seq<CatalogEntry>, n: Nutrient, i: nat)
    requires i < |catalog| && catalog[i].name == ing.name
    requires forall j :: 0 <= j < i ==> catalog[j].name != ing.name
    ensures Contribution(ing, catalog, n) == catalog[i].per100.Get(n) * (ing.quantity / 100.0)
  {
    LookupFirst(catalog, ing.name, i);
    MatchedContribution(ing, catalog, n, catalog[i]);
  }

  /** An ingredient listed twice is counted twice. */
  lemma DuplicateCountedTwice(a: seq<Ingredient>, ing: Ingredient, catalog: seq<CatalogEntry>, n: Nutrient)
    ensures RawTotal(a + [ing, ing], catalog, n) == RawTotal(a, catalog, n) + 2.0 * RawTotal([ing], catalog, n)
  {
    RawTotalAppend(a, [ing, ing], catalog, n);
    RawTotalAppend([ing], [ing], catalog, n);
    assert [ing] + [ing] == [ing, ing];
  }

  /** A list none of whose names is in the catalog has all raw totals zero. */
  lemma {:induction false} UnmatchedRawTotalZero(ings: seq<Ingredient>, catalog: seq<CatalogEntry>, n: Nutrient)
    requires forall k, i :: 0 <= k < |ings| && 0 <= i < |catalog| ==> catalog[i].name != ings[k].name
    ensures RawTotal(ings, catalog, n) == 0.0
  {
    if |ings| > 0 {
      UnmatchedRawTotalZero(ings[..|ings| - 1], catalog, n);
      assert Lookup(catalog, ings[|ings| - 1].name).None?;
    }
  }

  /** Two vectors that agree at every nutrient are equal. */
  lemma VectorsEqual(u: Vector, v: Vector)
    requires forall n :: u.Get(n) == v.Get(n)
    ensures u == v
  {
    assert u.Get(Calories) == v.Get(Calories) && u.Get(Protein) == v.Get(Protein) && u.Get(Carbs) == v.Get(Carbs);
    assert u.Get(Fat) == v.Get(Fat) && u.Get(Fiber) == v.Get(Fiber) && u.Get(Calcium) == v.Get(Calcium);
    assert u.Get(Iron) == v.Get(Iron) && u.Get(VitaminD) == v.Get(VitaminD) && u.Get(Omega3) == v.Get(Omega3);
  }

  /** An empty or fully unmatched recipe reports zero for every total and every per-serving value. */
  lemma UnmatchedRecipeReportsZero(recipe: Recipe, catalog: seq<CatalogEntry>)
    requires recipe.servings != 0.0
    requires forall k, i :: 0 <= k < |recipe.ingredients| && 0 <= i < |catalog| ==> catalog[i].name != recipe.ingredients[k].name
    ensures CalculateNutrition(recipe, catalog) == NutritionReport(Zero, Zero)
  {
    UnmatchedTotalsZero(recipe.ingredients, catalog);
    ZeroPerServing(recipe.servings);
  }

  /** The rounded totals of a fully unmatched list are all zero. */
  lemma UnmatchedTotalsZero(ings: seq<Ingredient>, catalog: seq<CatalogEntry>)
    requires forall k, i :: 0 <= k < |ings| && 0 <= i < |catalog| ==> catalog[i].name != ings[k].name
    ensures Totals(ings, catalog) == Zero
  {
    assert Round1(0.0) == 0.0 by { RoundInt(0); }
    forall n ensures Totals(ings, catalog).Get(n) == 0.0 {
      UnmatchedRawTotalZero(ings, catalog, n);
    }
    VectorsEqual(Totals(ings, catalog), Zero);
  }

  /** Zero totals give zero per-serving values. */
  lemma ZeroPerServing(servings: real)
    requires servings != 0.0
    ensures PerServing(Zero, servings) == Zero
  {
    assert Round1(0.0) == 0.0 by { RoundInt(0); }
    forall n ensures PerServing(Zero, servings).Get(n) == 0.0 {
      assert Zero.Get(n) / servings == 0.0;
    }
    VectorsEqual(PerServing(Zero, servings), Zero);
  }

  /** Every per-serving value is within half a tenth of the rounded total divided by the servings. */
  lemma PerServingWithinRounding(recipe: Recipe, catalog: seq<CatalogEntry>, n: Nutrient)
    requires recipe.servings != 0.0
    ensures var r := CalculateNutrition(recipe, catalog);
            var q := r.total.Get(n) / recipe.servings;
            q - 0.05 < r.perServing.Get(n) <= q + 0.05
  {
  }

  /** Every total is within half a tenth of the exact sum. */
  lemma TotalWithinRounding(recipe: Recipe, catalog: seq<CatalogEntry>, n: Nutrient)
    requires recipe.servings != 0.0
    ensures var t := CalculateNutrition(recipe, catalog).total.Get(n);
            var raw := RawTotal(recipe.ingredients, catalog, n);
            raw - 0.05 < t <= raw + 0.05
  {
  }
}

=== FILE: percentages.dfy ===
/** `calculatePercentages`: per-serving values as whole percentages of the
    disease's daily targets, for the mass-unit nutrients only. */
module Percentages {
  import opened Wrappers
  import opened Rounding
  import opened Text
  import opened Nutrition

  /** A key names a mass: it ends in `_g`, `_mg` or `_μg`. */
  predicate HasMassSuffix(key: string) {
    EndsWith(key, "_g") || EndsWith(key, "_mg") || EndsWith(key, "_\U{03BC}g")
  }

  /** A target key gets a percentage: it has a mass suffix and the per-serving
      report defines it. */
  predicate Qualifies(key: string) {
    HasMassSuffix(key) && NutrientOfKey(key).Some?
  }

  /** The eight report keys with a mass unit: every nutrient but calories. */
  const MassKeys: set<string> := {
    "protein_g", "carbs_g", "fat_g", "fiber_g", "calcium_mg", "iron_mg", "vitamin_d_\U{03BC}g", "omega3_g"
  }

  /** A percentage as the JSON reply carries it: a whole number, or `null` where
      the division by a zero target gave JavaScript's `Infinity` or `NaN`. */
  datatype Percentage = Finite(value: int) | NonFinite

  /** `Math.round(value / target * 100)`. */
  function PercentOf(value: real, target: real): (p: Percentage)
    ensures p.NonFinite? <==> target == 0.0
    ensures p.Finite? ==> value / target * 100.0 - 0.5 < p.value as real <= value / target * 100.0 + 0.5
  {
    if target == 0.0 then NonFinite else Finite(Round(value / target * 100.0))
  }

  /** The qualifying target keys are exactly the eight mass keys of the report. */
  lemma QualifiesIffMassKey(key: string)
    ensures Qualifies(key) <==> key in MassKeys
  {
    match NutrientOfKey(key)
    case None =>
      assert !Qualifies(key);
    case Some(n) =>
      KeyQualifiesIffMass(n);
      KeyInMassKeysIffMass(n);
  }

  /** A report key qualifies exactly when it is not the calories key. */
  lemma KeyQualifiesIffMass(n: Nutrient)
    ensures Qualifies(Key(n)) <==> n != Calories
  {
    KeyRoundTrip(n);
    MassSuffixIffMass(n);
  }

  /** Every key but `calories` carries a mass suffix. */
  lemma MassSuffixIffMass(n: Nutrient)
    ensures HasMassSuffix(Key(n)) <==> n != Calories
  {
    if n == Calories {
      CaloriesNotMass();
    } else {
      MassKeyHasSuffix(n);
    }
  }

  /** `calories` ends in `s`, and every mass suffix ends in `g`. */
  lemma CaloriesNotMass()
    ensures !HasMassSuffix("calories")
  {
    assert "calories"[7] == 's';
    assert "_g"[1] == 'g' && "_mg"[2] == 'g' && "_\U{03BC}g"[2] == 'g';
  }

  /** Every other key ends in one of the mass suffixes. */
  lemma MassKeyHasSuffix(n: Nutrient)
    requires n != Calories
    ensures HasMassSuffix(Key(n))
  {
  }

  /** A report key is a mass key exactly when it is not the calories key. */
  lemma KeyInMassKeysIffMass(n: Nutrient)
    ensures Key(n) in MassKeys <==> n != Calories
  {
  }

  /** `calculatePercentages(nutrition, targets)` over the report's per-serving values:
      one entry per target key with a mass suffix that the report defines. */
  function CalculatePercentages(perServing: Vector, targets: map<string, real>): (r: map<string, Percentage>)
    ensures r.Keys == targets.Keys * MassKeys
    ensures forall k :: k in r ==>
              && NutrientOfKey(k).Some?
              && r[k] == PercentOf(perServing.Get(NutrientOfKey(k).value), targets[k])
  {
    var r := map k | k in targets && Qualifies(k) :: PercentOf(perServing.Get(NutrientOfKey(k).value), targets[k]);
    assert r.Keys == targets.Keys * MassKeys by {
      forall k ensures k in r <==> k in targets.Keys * MassKeys {
        QualifiesIffMassKey(k);
      }
    }
    r
  }

  /** Calories and keys the report does not know, such as `sodium_mg`, never get a percentage. */
  lemma CaloriesAndUnknownKeysOmitted(perServing: Vector, targets: map<string, real>)
    ensures "calories" !in CalculatePercentages(perServing, targets)
    ensures "sodium_mg" !in CalculatePercentages(perServing, targets)
  {
  }

  /** A zero target on a mass key is not skipped: its entry is present and not a number. */
  lemma ZeroTargetIsNotSkipped(perServing: Vector, targets: map<string, real>, k: string)
    requires k in targets && k in MassKeys && targets[k] == 0.0
    ensures k in CalculatePercentages(perServing, targets)
    ensures CalculatePercentages(perServing, targets)[k] == NonFinite
  {
  }

  /** Each percentage for a non-zero target is within half a point of the exact percentage of target. */
  lemma PercentageWithinRounding(perServing: Vector, targets: map<string, real>, k: string)
    requires k in CalculatePercentages(perServing, targets) && targets[k] != 0.0
    ensures CalculatePercentages(perServing, targets)[k].Finite?
    ensures var exact := perServing.Get(NutrientOfKey(k).value) / targets[k] * 100.0;
            exact - 0.5 < CalculatePercentages(perServing, targets)[k].value as real <= exact + 0.5
  {
  }
}

=== FILE: profile_setup.dfy ===
/** The profile form's submit handler: the health condition and sex pass through,
    the age text becomes a number or nothing, and the allergy text becomes a list. */
module ProfileSetup {
  import opened Wrappers
  import opened Text
  import opened Recipes
  import opened Prompt
  import opened Seqs

  /** The form's state: the four `useState` values, age and allergies as typed. */
  datatype ProfileForm = ProfileForm(disease: Disease, age: string, sex: Sex, allergies: string)

  /** Type 1 diabetes, no age, sex `other`, no allergies. */
  const InitialProfileForm := ProfileForm(Type1Diabetes, "", Other, "")

  /** `pieces.map(a => a.trim())`. */
  function TrimAll(pieces: seq<string>): (r: seq<string>)
    ensures |r| == |pieces|
    ensures forall i :: 0 <= i < |r| ==> r[i] == Trim(pieces[i])
  {
    seq(|pieces|, i requires 0 <= i < |pieces| => Trim(pieces[i]))
  }

  /** Trimming each piece commutes with concatenation. */
  lemma TrimAllAppend(a: seq<string>, b: seq<string>)
    ensures TrimAll(a + b) == TrimAll(a) + TrimAll(b)
  {
  }

  /** Trimming never adds a character. */
  lemma TrimAddsNoChar(s: string, c: char)
    requires c !in s
    ensures c !in Trim(s)
  {
    TrimIsSlice(s);
    var t := Trim(s);
    var lead := LeadingWhitespace(s);
    assert forall k :: 0 <= k < |t| ==> t[k] == s[lead + k];
  }

  /** `allergies ? allergies.split(',').map(a => a.trim()) : []`. */
  function ParseAllergies(text: string): (r: seq<string>)
    ensures text == "" ==> r == []
    ensures text != "" ==> |r| == Count(text, ',') + 1
    ensures text != "" ==> forall i :: 0 <= i < |r| ==> r[i] == Trim(Split(text, ',')[i])
    ensures forall i :: 0 <= i < |r| ==> IsTrimmed(r[i]) && ',' !in r[i]
  {
    if text == "" then []
    else
      var pieces := Split(text, ',');
      forall i | 0 <= i < |pieces| ensures ',' !in Trim(pieces[i]) {
        TrimAddsNoChar(pieces[i], ',');
      }
      TrimAll(pieces)
  }

  /** `handleSubmit`: `age ? Number(age) : undefined`, with `toNumber` standing for `Number`. */
  function SubmitProfile(f: ProfileForm, toNumber: string -> real): (p: UserProfile)
    ensures p.disease == f.disease && p.sex == Some(f.sex)
    ensures p.age.None? <==> f.age == ""
    ensures p.age.Some? ==> p.age.value == toNumber(f.age)
    ensures p.allergies == Some(ParseAllergies(f.allergies))
  {
    UserProfile(f.disease, if f.age == "" then None else Some(toNumber(f.age)), Some(f.sex), Some(ParseAllergies(f.allergies)))
  }

  /** Untouched, the form submits type 1 diabetes, sex `other`, no age and no allergies. */
  lemma InitialProfile(toNumber: string -> real)
    ensures SubmitProfile(InitialProfileForm, toNumber) == UserProfile(Type1Diabetes, None, Some(Other), Some([]))
  {
  }

  /** Appending `,` and a comma-free piece to non-empty text appends that piece, trimmed. */
  lemma ParseAllergiesSnoc(text: string, piece: string)
    requires text != "" && ',' !in piece
    ensures ParseAllergies(text + [','] + piece) == ParseAllergies(text) + [Trim(piece)]
  {
    ParseAllergiesIsTrimAll(text);
    ParseAllergiesIsTrimAll(text + [','] + piece);
    TrimAllSplitSnoc(text, piece);
  }

  /** Non-empty text parses to its trimmed comma-separated pieces. */
  lemma ParseAllergiesIsTrimAll(text: string)
    requires text != ""
    ensures ParseAllergies(text) == TrimAll(Split(text, ','))
  {
  }

  /** The trimmed pieces of `text,piece` are those of `text` and then `piece` trimmed. */
  lemma TrimAllSplitSnoc(text: string, piece: string)
    requires ',' !in piece
    ensures TrimAll(Split(text + [','] + piece, ',')) == TrimAll(Split(text, ',')) + [Trim(piece)]
  {
    SplitAtSeparator(text, ',', piece);
    SplitSeparatorFree(piece, ',');
    TrimAllAppend(Split(text, ','), [piece]);
  }

  /** The last entry of a join of several entries follows `,` and a space. */
  lemma JoinCommaSpace(front: seq<string>, x: string)
    requires |front| > 0
    ensures Join(front + [x], ", ") == Join(front, ", ") + [','] + (" " + x)
  {
    JoinSnoc(front, x, ", ");
    CommaThenSpace(Join(front, ", "), x);
  }

  /** The `, ` separator is a comma followed by a space that opens the next entry. */
  lemma CommaThenSpace(j: string, x: string)
    ensures j + ", " + x == j + [','] + (" " + x)
  {
  }

  /** An allergy that survives a join and a re-parse unchanged: non-empty, trimmed, without a comma. */
  predicate CleanEntry(x: string) {
    x != "" && IsTrimmed(x) && ',' !in x
  }

  /** Every entry of a prefix of a clean list is clean. */
  lemma CleanFront(xs: seq<string>, k: nat)
    requires k <= |xs| && forall i :: 0 <= i < |xs| ==> CleanEntry(xs[i])
    ensures forall i :: 0 <= i < k ==> CleanEntry(xs[..k][i])
  {
  }

  /** Joining with `, ` and parsing again gives back a list of non-empty, trimmed,
      comma-free allergies: the allergy line of the prompt reads as the profile's list. */
  lemma {:induction false} ParseJoinedAllergies(xs: seq<string>)
    requires forall i :: 0 <= i < |xs| ==> CleanEntry(xs[i])
    ensures ParseAllergies(Join(xs, ", ")) == xs
  {
    if |xs| == 1 {
      ParseCleanEntry(xs[0]);
    } else if |xs| > 1 {
      var front := xs[..|xs| - 1];
      CleanFront(xs, |xs| - 1);
      ParseJoinedAllergies(front);
      ParseJoinedSnoc(front, xs[|xs| - 1]);
      FrontAndLast(xs);
    }
  }

  /** A clean entry on its own parses to itself. */
  lemma ParseCleanEntry(x: string)
    requires CleanEntry(x)
    ensures ParseAllergies(x) == [x]
  {
    SplitSeparatorFree(x, ',');
    TrimTrimmed(x);
    assert TrimAll([x]) == [x];
  }

  /** One more clean entry joined with `, ` parses as one more entry. */
  lemma ParseJoinedSnoc(front: seq<string>, x: string)
    requires |front| > 0 && CleanEntry(x)
    requires forall i :: 0 <= i < |front| ==> CleanEntry(front[i])
    requires ParseAllergies(Join(front, ", ")) == front
    ensures ParseAllergies(Join(front + [x], ", ")) == front + [x]
  {
    JoinNonEmpty(front);
    JoinCommaSpace(front, x);
    SpaceThenClean(x);
    ParseAllergiesSnoc(Join(front, ", "), " " + x);
  }

  /** A clean entry after a space is still comma-free, and trims back to itself. */
  lemma SpaceThenClean(x: string)
    requires CleanEntry(x)
    ensures ',' !in " " + x && Trim(" " + x) == x
  {
    TrimPadded(" ", x);
  }

  /** `"nuts, shellfish"` gives `["nuts", "shellfish"]`. */
  lemma NutsAndShellfish()
    ensures ParseAllergies("nuts, shellfish") == ["nuts", "shellfish"]
  {
    var xs := ["nuts", "shellfish"];
    assert Join(xs, ", ") == "nuts, shellfish" by {
      assert xs[..1] == ["nuts"];
    }
    assert CleanEntry(xs[0]) && CleanEntry(xs[1]);
    ParseJoinedAllergies(xs);
  }

  /** Empty pieces are kept: `a,,b` gives three entries, the middle one empty. */
  lemma EmptyPiecesKept(a: string, b: string)
    requires a != "" && IsTrimmed(a) && ',' !in a
    requires IsTrimmed(b) && ',' !in b
    ensures ParseAllergies(a + [','] + "" + [','] + b) == [a, "", b]
  {
    SplitSeparatorFree(a, ',');
    TrimTrimmed(a);
    assert ParseAllergies(a) == [a] by {
      assert TrimAll([a]) == [a];
    }
    ParseAllergiesSnoc(a, "");
    TrimTrimmed("");
    ParseAllergiesSnoc(a + [','] + "", b);
    TrimTrimmed(b);
  }

  /** The allergy line of the prompt for a profile from this form reads back as the profile's list. */
  lemma AllergyLineRoundTrip(f: ProfileForm, toNumber: string -> real)
    requires var xs := ParseAllergies(f.allergies); |xs| > 0 && forall i :: 0 <= i < |xs| ==> xs[i] != ""
    ensures ParseAllergies(AllergyLine(SubmitProfile(f, toNumber).allergies)) == ParseAllergies(f.allergies)
  {
    var xs := ParseAllergies(f.allergies);
    assert |Join(xs, ", ")| > 0 by { JoinNonEmpty(xs); }
    ParseJoinedAllergies(xs);
  }

  /** A join of non-empty entries is non-empty when there is at least one entry. */
  lemma {:induction false} JoinNonEmpty(xs: seq<string>)
    requires |xs| > 0 && forall i :: 0 <= i < |xs| ==> xs[i] != ""
    ensures |Join(xs, ", ")| > 0
  {
    if |xs| > 1 {
      JoinNonEmpty(xs[..|xs| - 1]);
    }
  }
}

=== FILE: prompt.dfy ===
/** The two prompt lines of the `substitute` operation that are built from data:
    the ingredient list and the allergy list. The fixed wording around them is free text. */
module Prompt {
  import opened Wrappers
  import opened Text
  import opened Recipes

  /** `- ${quantity} ${unit} ${name}`; `show` is JavaScript's number-to-string conversion. */
  function IngredientLine(ing: Ingredient, show: real -> string): string {
    "- " + show(ing.quantity) + " " + ing.unit + " " + ing.name
  }

  /** One line per ingredient, in recipe order. */
  function IngredientLines(ings: seq<Ingredient>, show: real -> string): (r: seq<string>)
    ensures |r| == |ings|
    ensures forall i :: 0 <= i < |ings| ==> r[i] == IngredientLine(ings[i], show)
  {
    seq(|ings|, i requires 0 <= i < |ings| => IngredientLine(ings[i], show))
  }

  /** The ingredient block: the lines joined with newlines. */
  function IngredientBlock(ings: seq<Ingredient>, show: real -> string): string {
    Join(IngredientLines(ings, show), "\n")
  }

  /** No field of the ingredient, nor its printed quantity, contains a line break. */
  predicate SingleLine(ing: Ingredient, show: real -> string) {
    '\n' !in ing.name && '\n' !in ing.unit && '\n' !in show(ing.quantity)
  }

  /** Reading the block back line by line gives exactly one line per ingredient, in order. */
  lemma IngredientBlockLines(ings: seq<Ingredient>, show: real -> string)
    requires |ings| > 0
    requires forall i :: 0 <= i < |ings| ==> SingleLine(ings[i], show)
    ensures Split(IngredientBlock(ings, show), '\n') == IngredientLines(ings, show)
  {
    var lines := IngredientLines(ings, show);
    forall i | 0 <= i < |lines| ensures '\n' !in lines[i] {
      var ing := ings[i];
      assert lines[i] == "- " + show(ing.quantity) + " " + ing.unit + " " + ing.name;
    }
    SplitJoin(lines, '\n');
  }

  /** `allergies?.join(', ') || 'none'`. */
  function AllergyLine(allergies: Option<seq<string>>): (r: string)
    ensures r != ""
    ensures allergies.None? ==> r == "none"
    ensures allergies.Some? && Join(allergies.value, ", ") != "" ==> r == Join(allergies.value, ", ")
    ensures allergies.Some? && Join(allergies.value, ", ") == "" ==> r == "none"
  {
    match allergies
    case None => "none"
    case Some(xs) => var j := Join(xs, ", "); if j != "" then j else "none"
  }

  /** The joined list is empty exactly for no allergies or one empty entry, so those print `none`. */
  lemma AllergyLineNone(xs: seq<string>)
    ensures AllergyLine(Some(xs)) == "none" <==> |xs| == 0 || xs == [""] || Join(xs, ", ") == "none"
  {
    if |xs| >= 2 {
      assert |Join(xs, ", ")| >= 2;
    }
  }
}

=== FILE: recipe_form.dfy ===
/** The recipe form's handlers: list edits while authoring, and the cleaning
    applied on submit before the recipe is posted. */
module RecipeForm {
  import opened Seqs
  import opened Text
  import opened Recipes

  /** The form's state: the four `useState` values. */
  datatype FormState = FormState(title: string, servings: real, ingredients: seq<Ingredient>, steps: seq<string>)

  const BlankIngredient := Ingredient("", 0.0, "")

  /** One blank ingredient, one blank step, four servings. */
  const InitialForm := FormState("", 4.0, [BlankIngredient], [""])

  /** Which field of an ingredient an input edits, with the new value. */
  datatype IngredientEdit = SetName(name: string) | SetQuantity(quantity: real) | SetUnit(unit: string)

  /** `{ ...ingredient, [field]: value }`. */
  function ApplyEdit(ing: Ingredient, edit: IngredientEdit): (r: Ingredient)
    ensures r.name == (if edit.SetName? then edit.name else ing.name)
    ensures r.quantity == (if edit.SetQuantity? then edit.quantity else ing.quantity)
    ensures r.unit == (if edit.SetUnit? then edit.unit else ing.unit)
  {
    match edit
    case SetName(n) => ing.(name := n)
    case SetQuantity(q) => ing.(quantity := q)
    case SetUnit(u) => ing.(unit := u)
  }

  /** `addIngredient`: one blank row appended, everything else kept. */
  function AddIngredient(f: FormState): (r: FormState)
    ensures r.title == f.title && r.servings == f.servings && r.steps == f.steps
    ensures |r.ingredients| == |f.ingredients| + 1
    ensures r.ingredients[..|f.ingredients|] == f.ingredients && r.ingredients[|f.ingredients|] == BlankIngredient
  {
    f.(ingredients := Append(f.ingredients, BlankIngredient))
  }

  /** `removeIngredient`: the row at `index` dropped, everything else kept. */
  function RemoveIngredient(f: FormState, index: int): (r: FormState)
    ensures r.title == f.title && r.servings == f.servings && r.steps == f.steps
    ensures 0 <= index < |f.ingredients| ==> r.ingredients == f.ingredients[..index] + f.ingredients[index + 1..]
    ensures !(0 <= index < |f.ingredients|) ==> r.ingredients == f.ingredients
  {
    f.(ingredients := RemoveAt(f.ingredients, index))
  }

  /** `updateIngredient`: one field of the row at `index` set, everything else kept. */
  function UpdateIngredient(f: FormState, index: int, edit: IngredientEdit): (r: FormState)
    requires 0 <= index < |f.ingredients|
    ensures r.title == f.title && r.servings == f.servings && r.steps == f.steps
    ensures |r.ingredients| == |f.ingredients|
    ensures r.ingredients[index] == ApplyEdit(f.ingredients[index], edit)
    ensures forall i :: 0 <= i < |f.ingredients| && i != index ==> r.ingredients[i] == f.ingredients[i]
  {
    f.(ingredients := UpdateAt(f.ingredients, index, ApplyEdit(f.ingredients[index], edit)))
  }

  /** `addStep`: one empty step appended, everything else kept. */
  function AddStep(f: FormState): (r: FormState)
    ensures r.title == f.title && r.servings == f.servings && r.ingredients == f.ingredients
    ensures |r.steps| == |f.steps| + 1
    ensures r.steps[..|f.steps|] == f.steps && r.steps[|f.steps|] == ""
  {
    f.(steps := Append(f.steps, ""))
  }

  /** `removeStep`: the step at `index` dropped, everything else kept. */
  function RemoveStep(f: FormState, index: int): (r: FormState)
    ensures r.title == f.title && r.servings == f.servings && r.ingredients == f.ingredients
    ensures 0 <= index < |f.steps| ==> r.steps == f.steps[..index] + f.steps[index + 1..]
    ensures !(0 <= index < |f.steps|) ==> r.steps == f.steps
  {
    f.(steps := RemoveAt(f.steps, index))
  }

  /** `updateStep`: the step at `index` replaced, everything else kept. */
  function UpdateStep(f: FormState, index: int, text: string): (r: FormState)
    requires 0 <= index < |f.steps|
    ensures r.title == f.title && r.servings == f.servings && r.ingredients == f.ingredients
    ensures |r.steps| == |f.steps|
    ensures r.steps[index] == text
    ensures forall i :: 0 <= i < |f.steps| && i != index ==> r.steps[i] == f.steps[i]
  {
    f.(steps := UpdateAt(f.steps, index, text))
  }

  /** The user's interactions with the rendered form. */
  datatype FormAction =
    | EditTitle(title: string)
    | EditServings(servings: real)
    | AddIngredientClicked
    | RemoveIngredientClicked(index: int)
    | IngredientChanged(index: int, edit: IngredientEdit)
    | AddStepClicked
    | RemoveStepClicked(index: int)
    | StepChanged(index: int, text: string)

  /** One interaction. Inputs exist only for rendered rows, and a row's remove
      button is rendered only while its list has more than one entry; an action
      on a control that is not rendered does nothing. */
  function Step(f: FormState, a: FormAction): (r: FormState)
    ensures |f.ingredients| >= 1 ==> |r.ingredients| >= 1
    ensures |f.steps| >= 1 ==> |r.steps| >= 1
  {
    match a
    case EditTitle(t) => f.(title := t)
    case EditServings(s) => f.(servings := s)
    case AddIngredientClicked => AddIngredient(f)
    case RemoveIngredientClicked(i) =>
      if |f.ingredients| > 1 && 0 <= i < |f.ingredients| then RemoveIngredient(f, i) else f
    case IngredientChanged(i, e) =>
      if 0 <= i < |f.ingredients| then UpdateIngredient(f, i, e) else f
    case AddStepClicked => AddStep(f)
    case RemoveStepClicked(i) =>
      if |f.steps| > 1 && 0 <= i < |f.steps| then RemoveStep(f, i) else f
    case StepChanged(i, t) =>
      if 0 <= i < |f.steps| then UpdateStep(f, i, t) else f
  }

  /** A sequence of interactions, in order. */
  function Run(f: FormState, actions: seq<FormAction>): FormState
    decreases |actions|
  {
    if |actions| == 0 then f else Run(Step(f, actions[0]), actions[1..])
  }

  /** Starting from the initial form, neither list is ever empty. */
  lemma {:induction false} ListsNeverEmpty(f: FormState, actions: seq<FormAction>)
    requires |f.ingredients| >= 1 && |f.steps| >= 1
    ensures |Run(f, actions).ingredients| >= 1 && |Run(f, actions).steps| >= 1
    decreases |actions|
  {
    if |actions| > 0 {
      ListsNeverEmpty(Step(f, actions[0]), actions[1..]);
    }
  }

  /** Every form reachable from the initial one has at least one ingredient row and one step row. */
  lemma ReachableFormsHaveRows(actions: seq<FormAction>)
    ensures |Run(InitialForm, actions).ingredients| >= 1 && |Run(InitialForm, actions).steps| >= 1
  {
    ListsNeverEmpty(InitialForm, actions);
  }

  /** `i.name && i.quantity && i.unit`: all three fields filled, the quantity non-zero. */
  predicate IngredientFilled(ing: Ingredient) {
    ing.name != "" && ing.quantity != 0.0 && ing.unit != ""
  }

  /** `s.trim().length >= 10`. */
  predicate StepFilled(step: string) {
    |Trim(step)| >= 10
  }

  /** `handleSubmit`: title and servings as typed, the filled ingredients and
      steps in their order. */
  function Submit(f: FormState): (r: Recipe)
    ensures r.title == f.title && r.servings == f.servings
    ensures forall i :: 0 <= i < |r.ingredients| ==> IngredientFilled(r.ingredients[i]) && r.ingredients[i] in f.ingredients
    ensures forall i :: 0 <= i < |f.ingredients| && IngredientFilled(f.ingredients[i]) ==> f.ingredients[i] in r.ingredients
    ensures forall i :: 0 <= i < |r.steps| ==> StepFilled(r.steps[i]) && r.steps[i] in f.steps
    ensures forall i :: 0 <= i < |f.steps| && StepFilled(f.steps[i]) ==> f.steps[i] in r.steps
  {
    Recipe(f.title, f.servings, Filter(f.ingredients, IngredientFilled), Filter(f.steps, StepFilled))
  }

  /** Submitting keeps relative order: the rows kept from two halves of a list are
      the rows kept from the first half followed by those kept from the second. */
  lemma SubmitKeepsOrder(f: FormState, ia: seq<Ingredient>, ib: seq<Ingredient>, sa: seq<string>, sb: seq<string>)
    requires f.ingredients == ia + ib && f.steps == sa + sb
    ensures Submit(f).ingredients == Filter(ia, IngredientFilled) + Filter(ib, IngredientFilled)
    ensures Submit(f).steps == Filter(sa, StepFilled) + Filter(sb, StepFilled)
  {
    FilterAppend(ia, ib, IngredientFilled);
    FilterAppend(sa, sb, StepFilled);
  }

  /** Appending a blank ingredient or step leaves what is submitted unchanged. */
  lemma BlankRowsAreDropped(f: FormState)
    ensures Submit(AddIngredient(f)) == Submit(f)
    ensures Submit(AddStep(f)) == Submit(f)
  {
    FilterAppend(f.ingredients, [BlankIngredient], IngredientFilled);
    FilterAppend(f.steps, [""], StepFilled);
    assert Filter([BlankIngredient], IngredientFilled) == [];
    assert Trim("") == "";
    assert Filter([""], StepFilled) == [];
  }
}

=== FILE: recipes.dfy ===
/** The shapes shared by the client and the server functions: ingredients,
    recipes, the user's health profile and suggested substitutions. */
module Recipes {
  import opened Wrappers

  /** One recipe line: `quantity` is on the same per-100 basis as the nutrient catalog. */
  datatype Ingredient = Ingredient(name: string, quantity: real, unit: string)

  datatype Recipe = Recipe(title: string, servings: real, ingredients: seq<Ingredient>, steps: seq<string>)

  /** The three conditions a profile can name. */
  datatype Disease = Type1Diabetes | Celiac | LactoseIntolerance

  datatype Sex = Male | Female | Other

  /** The profile sent with a modification request; every field but the disease is optional. */
  datatype UserProfile = UserProfile(disease: Disease, age: Option<real>, sex: Option<Sex>, allergies: Option<seq<string>>)

  /** An advisory replacement suggested by the text-generation service. */
  datatype Substitution = Substitution(original: string, substitute: string, reason: string)
}

=== FILE: recipes_api.dfy ===
/** The `recipes` function: request routing by method and path, and the
    validation chain a new recipe must pass before it is stored. */
module RecipesApi {
  import opened Wrappers
  import opened Text
  import opened Seqs
  import opened Recipes

  /** An ingredient as it arrives in a request body: any field may be missing. */
  datatype IngredientPayload = IngredientPayload(name: Option<string>, quantity: Option<real>, unit: Option<string>)

  /** A recipe as it arrives in a request body: any field may be missing. */
  datatype RecipePayload = RecipePayload(
    title: Option<string>,
    servings: Option<real>,
    ingredients: Option<seq<IngredientPayload>>,
    steps: Option<seq<string>>)

  datatype Verdict = Accepted | Rejected(message: string)

  const TitleRequired := "Title is required"
  const ServingsPositive := "Servings must be greater than 0"
  const IngredientIncomplete := "Each ingredient must have name, quantity, and unit"
  const StepLength := "Each step must be between 10 and 500 characters"

  /** `!body.title || body.title.trim().length === 0` fails. */
  predicate TitleOk(title: Option<string>) {
    title.Some? && |Trim(title.value)| != 0
  }

  /** `!body.servings || body.servings <= 0` fails. */
  predicate ServingsOk(servings: Option<real>) {
    servings.Some? && servings.value > 0.0
  }

  /** `!ingredient.name || !ingredient.quantity || !ingredient.unit` fails:
      an empty or missing text, or a zero or missing quantity. */
  predicate IngredientOk(ing: IngredientPayload) {
    && ing.name.Some? && ing.name.value != ""
    && ing.quantity.Some? && ing.quantity.value != 0.0
    && ing.unit.Some? && ing.unit.value != ""
  }

  /** `step.length < 10 || step.length > 500` fails. */
  predicate StepOk(step: string) {
    10 <= |step| <= 500
  }

  /** The POST checks in order: title, servings, each ingredient, each step.
      The first failing check's message is the answer; an absent list is empty. */
  function Validate(body: RecipePayload): (v: Verdict)
    ensures v == Accepted <==>
              && TitleOk(body.title)
              && ServingsOk(body.servings)
              && (forall i :: 0 <= i < |body.ingredients.GetOr([])| ==> IngredientOk(body.ingredients.GetOr([])[i]))
              && (forall i :: 0 <= i < |body.steps.GetOr([])| ==> StepOk(body.steps.GetOr([])[i]))
    ensures v == Rejected(TitleRequired) <==> !TitleOk(body.title)
    ensures v == Rejected(ServingsPositive) <==> TitleOk(body.title) && !ServingsOk(body.servings)
    ensures v == Rejected(IngredientIncomplete) <==>
              && TitleOk(body.title) && ServingsOk(body.servings)
              && exists i :: 0 <= i < |body.ingredients.GetOr([])| && !IngredientOk(body.ingredients.GetOr([])[i])
    ensures v == Rejected(StepLength) <==>
              && TitleOk(body.title) && ServingsOk(body.servings)
              && (forall i :: 0 <= i < |body.ingredients.GetOr([])| ==> IngredientOk(body.ingredients.GetOr([])[i]))
              && exists i :: 0 <= i < |body.steps.GetOr([])| && !StepOk(body.steps.GetOr([])[i])
  {
    var ings := body.ingredients.GetOr([]);
    var steps := body.steps.GetOr([]);
    if !TitleOk(body.title) then Rejected(TitleRequired)
    else if !ServingsOk(body.servings) then Rejected(ServingsPositive)
    else if FirstFailing(ings, IngredientOk).Some? then Rejected(IngredientIncomplete)
    else if FirstFailing(steps, StepOk).Some? then Rejected(StepLength)
    else Accepted
  }

  /** The `for ... of` loop that returns at the first element failing `ok`: its position, if any. */
  function FirstFailing<T>(s: seq<T>, ok: T -> bool): (r: Option<nat>)
    ensures r.None? <==> forall i :: 0 <= i < |s| ==> ok(s[i])
    ensures r.Some? ==> r.value < |s| && !ok(s[r.value]) && forall i :: 0 <= i < r.value ==> ok(s[i])
  {
    if |s| == 0 then None
    else if !ok(s[0]) then Some(0)
    else match FirstFailing(s[1..], ok)
      case Some(k) =>
        assert forall i :: 1 <= i < |s| ==> s[i] == s[1..][i - 1];
        Some(k + 1)
      case None =>
        assert forall i :: 1 <= i < |s| ==> s[i] == s[1..][i - 1];
        None
  }

  /** What a request leads to once it is authenticated. */
  datatype Route = Preflight | Create(verdict: Verdict) | FetchOne(id: string) | ListAll | MethodNotAllowed

  /** `url.pathname.split("/").filter(Boolean)`. */
  function PathSegments(path: string): (r: seq<string>)
    ensures forall i :: 0 <= i < |r| ==> r[i] != "" && '/' !in r[i]
    ensures forall i :: 0 <= i < |r| ==> r[i] in Split(path, '/')
  {
    Filter(Split(path, '/'), (s: string) => s != "")
  }

  /** `pathParts[pathParts.length - 1]`: the last non-empty segment, if any. */
  function RecipeIdOf(path: string): (r: Option<string>)
    ensures r.Some? ==> r.value != "" && '/' !in r.value
  {
    var parts := PathSegments(path);
    if |parts| == 0 then None
    else
      assert parts[|parts| - 1] in Split(path, '/');
      Some(parts[|parts| - 1])
  }

  /** The trailing run of non-`/` characters of `s`. */
  function TrailingSegment(s: string): (r: string)
    ensures |r| <= |s| && '/' !in r && r == s[|s| - |r|..]
    ensures |r| < |s| ==> s[|s| - |r| - 1] == '/'
  {
    if |s| == 0 || s[|s| - 1] == '/' then ""
    else
      var front := s[..|s| - 1];
      var t := TrailingSegment(front);
      assert s[|s| - |t| - 1..] == front[|front| - |t|..] + [s[|s| - 1]];
      t + [s[|s| - 1]]
  }

  /** Reference reading of the id: drop trailing slashes, then take what follows the last slash. */
  function LastSegment(path: string): Option<string> {
    if |path| == 0 then None
    else if path[|path| - 1] == '/' then LastSegment(path[..|path| - 1])
    else Some(TrailingSegment(path))
  }

  /** The last piece of a split is the trailing run of non-separator characters. */
  lemma {:induction false} LastPieceIsTrailingSegment(s: string)
    ensures var p := Split(s, '/'); p[|p| - 1] == TrailingSegment(s)
  {
    if |s| > 0 && s[|s| - 1] != '/' {
      LastPieceIsTrailingSegment(s[..|s| - 1]);
    }
  }

  /** The id the source reads from the path is the last non-empty segment:
      what follows the last slash once trailing slashes are dropped. */
  lemma {:induction false} RecipeIdIsLastSegment(path: string)
    ensures RecipeIdOf(path) == LastSegment(path)
  {
    if |path| > 0 {
      if path[|path| - 1] == '/' {
        RecipeIdIsLastSegment(path[..|path| - 1]);
        TrailingSlashAddsNoSegment(path);
      } else {
        LastSegmentIsTrailingRun(path);
      }
    }
  }

  /** A trailing `/` only adds an empty piece, which the filter drops. */
  lemma TrailingSlashAddsNoSegment(path: string)
    requires |path| > 0 && path[|path| - 1] == '/'
    ensures PathSegments(path) == PathSegments(path[..|path| - 1])
  {
    var p := Split(path[..|path| - 1], '/');
    FilterAppend(p, [""], (s: string) => s != "");
  }

  /** Without a trailing `/`, the last segment is the trailing run of non-`/` characters. */
  lemma LastSegmentIsTrailingRun(path: string)
    requires |path| > 0 && path[|path| - 1] != '/'
    ensures var parts := PathSegments(path);
            |parts| > 0 && parts[|parts| - 1] == TrailingSegment(path)
  {
    var p := Split(path[..|path| - 1], '/');
    var q := Split(path, '/');
    LastPieceIsTrailingSegment(path);
    assert q == p[..|p| - 1] + [q[|q| - 1]];
    FilterAppend(p[..|p| - 1], [q[|q| - 1]], (s: string) => s != "");
    assert q[|q| - 1] != "";
  }

  /** Method dispatch: OPTIONS is the CORS preflight, POST validates a new recipe,
      GET fetches one recipe when the last path segment is an id other than
      `recipes` and lists them otherwise, and any other method is refused. */
  function RouteRequest(verb: string, path: string, body: RecipePayload): (r: Route)
    ensures verb == "POST" ==> r == Create(Validate(body))
    ensures verb == "GET" ==> (r.FetchOne? <==> RecipeIdOf(path).Some? && RecipeIdOf(path).value != "recipes")
    ensures verb == "GET" && r.FetchOne? ==> Some(r.id) == LastSegment(path)
    ensures verb == "GET" && !r.FetchOne? ==> r == ListAll
    ensures verb == "OPTIONS" ==> r == Preflight
    ensures r == MethodNotAllowed <==> verb !in {"OPTIONS", "POST", "GET"}
  {
    RecipeIdIsLastSegment(path);
    if verb == "OPTIONS" then Preflight
    else if verb == "POST" then Create(Validate(body))
    else if verb == "GET" then
      match RecipeIdOf(path)
      case Some(id) => if id != "recipes" then FetchOne(id) else ListAll
      case None => ListAll
    else MethodNotAllowed
  }
}

=== FILE: reply.dfy ===
/** The `substitute` operation's handling of the text-generation reply:
    default content, brace extraction, tolerant decoding and fallbacks. */
module Reply {
  import opened Wrappers
  import opened Recipes

  /** What `JSON.parse` produced: `null`, an object (with the two fields the
      engine reads, absent or falsy ones as `None`), or any other value. */
  datatype Json =
    | JsonNull
    | JsonObject(substitutions: Option<seq<Substitution>>, modifiedRecipe: Option<Recipe>)
    | JsonOther

  /** `JSON.parse` as an abstract decoder: `None` is a parse failure. */
  type Parser = string -> Option<Json>

  /** The substitutions and the recipe the engine goes on with. */
  datatype Interpretation = Interpretation(substitutions: seq<Substitution>, recipe: Recipe)

  /** `choices[0]?.message?.content || "{}"`: absent or empty content becomes `{}`. */
  function ContentOrEmptyObject(content: Option<string>): (t: string)
    ensures t != ""
    ensures content.Some? && content.value != "" ==> t == content.value
    ensures content.None? || content.value == "" ==> t == "{}"
  {
    match content
    case Some(c) => if c != "" then c else "{}"
    case None => "{}"
  }

  /** The position of the first occurrence of `c` in `s`. */
  function FirstIndex(s: string, c: char): (r: Option<nat>)
    ensures r.Some? ==> r.value < |s| && s[r.value] == c && forall k :: 0 <= k < r.value ==> s[k] != c
    ensures r.None? ==> c !in s
  {
    if |s| == 0 then None
    else if s[0] == c then Some(0)
    else match FirstIndex(s[1..], c)
      case Some(k) => Some(k + 1)
      case None => None
  }

  /** The position of the last occurrence of `c` in `s`. */
  function LastIndex(s: string, c: char): (r: Option<nat>)
    ensures r.Some? ==> r.value < |s| && s[r.value] == c && forall k :: r.value < k < |s| ==> s[k] != c
    ensures r.None? ==> c !in s
  {
    if |s| == 0 then None
    else if s[|s| - 1] == c then Some(|s| - 1)
    else LastIndex(s[..|s| - 1], c)
  }

  /** `{` at `i` and `}` at a later `j`: a span the pattern `/\{[\s\S]*\}/` can match. */
  predicate IsBraceSpan(t: string, i: int, j: int) {
    0 <= i < j < |t| && t[i] == '{' && t[j] == '}'
  }

  /** The span `t.match(/\{[\s\S]*\}/)` returns: from the first `{` to the last `}`,
      when that `{` comes before that `}`. As the regular expression engine does,
      the result starts as far left as possible and, from there, is as long as possible. */
  function BraceSpan(t: string): (r: Option<(nat, nat)>)
    ensures r.None? <==> forall i, j :: !IsBraceSpan(t, i, j)
    ensures r.Some? ==> IsBraceSpan(t, r.value.0, r.value.1)
    ensures r.Some? ==> forall i, j :: IsBraceSpan(t, i, j) ==>
                          r.value.0 < i || (r.value.0 == i && j <= r.value.1)
  {
    match (FirstIndex(t, '{'), LastIndex(t, '}'))
    case (Some(i), Some(j)) =>
      if i < j then
        assert IsBraceSpan(t, i, j);
        Some((i, j))
      else None
    case _ => None
  }

  /** The text handed to `JSON.parse`: the matched span, or the whole text when nothing matches. */
  function TextToParse(content: Option<string>): (r: string)
    ensures var t := ContentOrEmptyObject(content);
            match BraceSpan(t)
            case Some((i, j)) => r == t[i..j + 1] && r[0] == '{' && r[|r| - 1] == '}'
            case None => r == t
  {
    var t := ContentOrEmptyObject(content);
    match BraceSpan(t)
    case Some((i, j)) => t[i..j + 1]
    case None => t
  }

  /** How the `substitute` branch reads the decoded reply: a parse failure falls back to
      no substitutions and the original recipe, missing fields take their defaults,
      and a `null` value is a runtime error (reading a field of `null`). */
  function Interpret(content: Option<string>, parse: Parser, original: Recipe): (r: Result<Interpretation, string>)
    ensures r.Err? <==> parse(TextToParse(content)) == Some(JsonNull)
    ensures parse(TextToParse(content)).None? ==> r == Ok(Interpretation([], original))
    ensures parse(TextToParse(content)) == Some(JsonOther) ==> r == Ok(Interpretation([], original))
    ensures r.Ok? && parse(TextToParse(content)).Some? && parse(TextToParse(content)).value.JsonObject? ==>
              var obj := parse(TextToParse(content)).value;
              && (obj.modifiedRecipe.None? ==> r.value.recipe == original)
              && (obj.modifiedRecipe.Some? ==> r.value.recipe == obj.modifiedRecipe.value)
              && (obj.substitutions.None? ==> r.value.substitutions == [])
              && (obj.substitutions.Some? ==> r.value.substitutions == obj.substitutions.value)
  {
    match parse(TextToParse(content))
    case None => Ok(Interpretation([], original))
    case Some(JsonNull) => Err("Cannot read properties of null (reading 'modifiedRecipe')")
    case Some(JsonOther) => Ok(Interpretation([], original))
    case Some(JsonObject(subs, recipe)) => Ok(Interpretation(subs.GetOr([]), recipe.GetOr(original)))
  }

  /** A reply the decoder cannot read changes nothing, whatever the reply was. */
  lemma MalformedReplyIsNoChange(content: Option<string>, parse: Parser, original: Recipe)
    requires parse(TextToParse(content)).None?
    ensures Interpret(content, parse, original) == Ok(Interpretation([], original))
  {
  }

  /** Absent content is read as an empty object, which names no change either. */
  lemma AbsentContentParsesEmptyObject(content: Option<string>)
    requires content.None? || content == Some("")
    ensures TextToParse(content) == "{}"
  {
    assert BraceSpan("{}") == Some((0, 1));
  }

  /** Text with a `{` before a later `}` is cut to the first `{` through the last `}`:
      surrounding prose and code fences are dropped, inner braces are kept. */
  lemma ProseAroundObjectIsDropped(prose: string, obj: string, trailer: string)
    requires '{' !in prose && '}' !in trailer
    requires |obj| >= 2 && obj[0] == '{' && obj[|obj| - 1] == '}'
    ensures TextToParse(Some(prose + obj + trailer)) == obj
  {
    FramedBraceSpan(prose, obj, trailer);
    FramedSlice(prose, obj, trailer);
  }

  /** The brace span of `prose + obj + trailer` is exactly `obj`'s position. */
  lemma FramedBraceSpan(prose: string, obj: string, trailer: string)
    requires '{' !in prose && '}' !in trailer
    requires |obj| >= 2 && obj[0] == '{' && obj[|obj| - 1] == '}'
    ensures BraceSpan(prose + obj + trailer) == Some((|prose|, |prose| + |obj| - 1))
  {
    assert IsBraceSpan(prose + obj + trailer, |prose|, |prose| + |obj| - 1);
  }

  /** `obj` sits at its position in `prose + obj + trailer`. */
  lemma FramedSlice(prose: string, obj: string, trailer: string)
    ensures (prose + obj + trailer)[|prose|..|prose| + |obj|] == obj
  {
    assert prose + obj + trailer == prose + (obj + trailer);
  }
}

=== FILE: rounding.dfy ===
/** JavaScript's `Math.round` and the one-decimal rounding the nutrition engine
    writes as `Math.round(x * 10) / 10`, over exact reals. */
module Rounding {

  /** `Math.round(x)`: the nearest integer, halves rounded up. */
  function Round(x: real): (r: int)
    ensures x - 0.5 < r as real <= x + 0.5
  {
    (x + 0.5).Floor
  }

  /** `Math.round(x * 10) / 10`: the nearest multiple of 0.1. */
  function Round1(x: real): (r: real)
    ensures x - 0.05 < r <= x + 0.05
    ensures 10.0 * r == (10.0 * r).Floor as real
  {
    Round(10.0 * x) as real / 10.0
  }

  /** An integer is its own rounding. */
  lemma RoundInt(k: int)
    ensures Round(k as real) == k
  {
  }

  /** A value already on the one-decimal grid is left unchanged. */
  lemma Round1OnGrid(k: int)
    ensures Round1(k as real / 10.0) == k as real / 10.0
  {
    assert 10.0 * (k as real / 10.0) == k as real;
    RoundInt(k);
  }

  /** Rounding to one decimal is idempotent. */
  lemma Round1Idempotent(x: real)
    ensures Round1(Round1(x)) == Round1(x)
  {
    Round1OnGrid(Round(10.0 * x));
  }
}

=== FILE: scaling.dfy ===
/** The `scale` operation: a linear transform of a recipe by a factor. */
module Scaling {
  import opened Wrappers
  import opened Rounding
  import opened Recipes
  import opened Nutrition
  import opened Seqs

  /** `body.scaleFactor || 1`: a missing or zero factor means 1. */
  function EffectiveFactor(scaleFactor: Option<real>): (f: real)
    ensures f != 0.0
    ensures scaleFactor.Some? && scaleFactor.value != 0.0 ==> f == scaleFactor.value
    ensures scaleFactor.None? || scaleFactor.value == 0.0 ==> f == 1.0
  {
    match scaleFactor
    case Some(x) => if x != 0.0 then x else 1.0
    case None => 1.0
  }

  /** Every quantity multiplied by `f`; order, names and units kept. */
  function ScaleIngredients(ings: seq<Ingredient>, f: real): (r: seq<Ingredient>)
    ensures |r| == |ings|
    ensures forall i :: 0 <= i < |ings| ==> r[i] == ings[i].(quantity := ings[i].quantity * f)
  {
    seq(|ings|, i requires 0 <= i < |ings| => ings[i].(quantity := ings[i].quantity * f))
  }

  /** The scaled recipe exactly as the source builds it: servings become
      `Math.round(servings * f)`, which can be 0. */
  function ScaleRecipe(recipe: Recipe, f: real): (r: Recipe)
    ensures r.title == recipe.title && r.steps == recipe.steps
    ensures r.ingredients == ScaleIngredients(recipe.ingredients, f)
    ensures r.servings == Round(recipe.servings * f) as real
    ensures recipe.servings * f - 0.5 < r.servings <= recipe.servings * f + 0.5
  {
    recipe.(servings := Round(recipe.servings * f) as real,
            ingredients := ScaleIngredients(recipe.ingredients, f))
  }

  /** Scaled servings stay at least one exactly when `servings * f` is at least one half. */
  lemma ScaledServingsPositiveIff(recipe: Recipe, f: real)
    ensures ScaleRecipe(recipe, f).servings >= 1.0 <==> recipe.servings * f >= 0.5
  {
  }

  /** The defect: one serving scaled by 0.4 has zero servings, and the
      per-serving division that follows divides by zero. */
  lemma ScaleToZeroServings()
    ensures ScaleRecipe(Recipe("Oats", 1.0, [], []), 0.4).servings == 0.0
  {
    assert Round(0.4) == 0;
  }

  /** The evidently intended scaling: as written, but with at least one serving. */
  function ScaleRecipeClamped(recipe: Recipe, f: real): (r: Recipe)
    ensures r.servings >= 1.0
    ensures recipe.servings * f >= 0.5 ==> r == ScaleRecipe(recipe, f)
    ensures r.title == recipe.title && r.steps == recipe.steps
    ensures r.ingredients == ScaleIngredients(recipe.ingredients, f)
  {
    var r := ScaleRecipe(recipe, f);
    if r.servings < 1.0 then r.(servings := 1.0) else r
  }

  /** A missing or zero factor leaves quantities and whole-number servings unchanged. */
  lemma DefaultFactorIsIdentity(recipe: Recipe, scaleFactor: Option<real>)
    requires scaleFactor.None? || scaleFactor.value == 0.0
    requires recipe.servings == recipe.servings.Floor as real
    ensures ScaleRecipe(recipe, EffectiveFactor(scaleFactor)) == recipe
    ensures ScaleRecipeClamped(recipe, EffectiveFactor(scaleFactor)).ingredients == recipe.ingredients
  {
    var r := ScaleRecipe(recipe, 1.0);
    RoundInt(recipe.servings.Floor);
    assert r.ingredients == recipe.ingredients;
  }

  /** Scaling by `f` then by `g` scales the quantities by `f * g`. */
  lemma ScaleCompose(ings: seq<Ingredient>, f: real, g: real)
    ensures ScaleIngredients(ScaleIngredients(ings, f), g) == ScaleIngredients(ings, f * g)
  {
    var a := ScaleIngredients(ScaleIngredients(ings, f), g);
    var b := ScaleIngredients(ings, f * g);
    forall i | 0 <= i < |ings| ensures a[i] == b[i] {
      assert a[i].quantity == (ings[i].quantity * f) * g;
    }
  }

  /** Scaling by 1 changes nothing. */
  lemma ScaleByOne(ings: seq<Ingredient>)
    ensures ScaleIngredients(ings, 1.0) == ings
  {
    var a := ScaleIngredients(ings, 1.0);
    forall i | 0 <= i < |ings| ensures a[i] == ings[i] {
      assert a[i].quantity == ings[i].quantity;
    }
  }

  /** Scaling by `f` and then by `1/f` gives back the original quantities. */
  lemma ScaleRoundTrip(ings: seq<Ingredient>, f: real)
    requires f != 0.0
    ensures ScaleIngredients(ScaleIngredients(ings, f), 1.0 / f) == ings
  {
    var g := 1.0 / f;
    ScaleCompose(ings, f, g);
    assert f * g == 1.0;
    ScaleByOne(ings);
    assert ScaleIngredients(ScaleIngredients(ings, f), g) == ScaleIngredients(ings, 1.0);
  }

  /** Scaling one ingredient scales what it contributes. */
  lemma ScaledContribution(ing: Ingredient, f: real, catalog: seq<CatalogEntry>, n: Nutrient)
    ensures Contribution(ing.(quantity := ing.quantity * f), catalog, n) == f * Contribution(ing, catalog, n)
  {
    match Lookup(catalog, ing.name)
    case None =>
    case Some(e) =>
      var v := e.per100.Get(n);
      assert v * (ing.quantity * f / 100.0) == f * (v * (ing.quantity / 100.0));
  }

  /** Every raw total of the scaled ingredient list is `f` times the original's: the raw totals
      are the sums of the contributions, and the scaled contributions sum to `f` times the original sum. */
  lemma ScaledRawTotal(ings: seq<Ingredient>, f: real, catalog: seq<CatalogEntry>, n: Nutrient)
    ensures RawTotal(ScaleIngredients(ings, f), catalog, n) == Sum(Contributions(ScaleIngredients(ings, f), catalog, n))
    ensures Sum(Contributions(ScaleIngredients(ings, f), catalog, n)) == f * Sum(Contributions(ings, catalog, n))
    ensures Sum(Contributions(ings, catalog, n)) == RawTotal(ings, catalog, n)
  {
    RawTotalIsSum(ings, catalog, n);
    RawTotalIsSum(ScaleIngredients(ings, f), catalog, n);
    ScaledContributionsSum(ings, f, catalog, n);
  }

  /** The contributions of the scaled list sum to `f` times those of the original. */
  lemma ScaledContributionsSum(ings: seq<Ingredient>, f: real, catalog: seq<CatalogEntry>, n: Nutrient)
    ensures Sum(Contributions(ScaleIngredients(ings, f), catalog, n)) == f * Sum(Contributions(ings, catalog, n))
  {
    ScaledContributions(ings, f, catalog, n);
    SumScaled(Contributions(ings, catalog, n), Contributions(ScaleIngredients(ings, f), catalog, n), f);
  }

  /** Each scaled ingredient contributes `f` times what the original one does. */
  lemma ScaledContributions(ings: seq<Ingredient>, f: real, catalog: seq<CatalogEntry>, n: Nutrient)
    ensures var xs, ys := Contributions(ings, catalog, n), Contributions(ScaleIngredients(ings, f), catalog, n);
            forall i :: 0 <= i < |xs| ==> ys[i] == f * xs[i]
  {
    forall i | 0 <= i < |ings|
      ensures Contribution(ScaleIngredients(ings, f)[i], catalog, n) == f * Contribution(ings[i], catalog, n)
    {
      ScaledContribution(ings[i], f, catalog, n);
    }
  }
}

=== FILE: seqs.dfy ===
/** The array operations the source uses on lists it edits or cleans:
    `filter`, filtering out one position, spread-append and indexed update. */
module Seqs {

  /** `s.filter(p)`: the elements of `s` satisfying `p`, in their original order. */
  function Filter<T>(s: seq<T>, p: T -> bool): (r: seq<T>)
    ensures |r| <= |s|
    ensures forall i :: 0 <= i < |r| ==> p(r[i])
    ensures forall i :: 0 <= i < |r| ==> r[i] in s
    ensures forall i :: 0 <= i < |s| && p(s[i]) ==> s[i] in r
  {
    if |s| == 0 then []
    else
      var front := Filter(s[..|s| - 1], p);
      if p(s[|s| - 1]) then front + [s[|s| - 1]] else front
  }

  /** Filtering is a homomorphism for concatenation, so the relative order
      of the kept elements is that of the input. */
  lemma {:induction false} FilterAppend<T>(a: seq<T>, b: seq<T>, p: T -> bool)
    ensures Filter(a + b, p) == Filter(a, p) + Filter(b, p)
  {
    if |b| == 0 {
      assert a + b == a;
    } else {
      var b' := b[..|b| - 1];
      assert (a + b)[..|a + b| - 1] == a + b';
      assert (a + b)[|a + b| - 1] == b[|b| - 1];
      FilterAppend(a, b', p);
    }
  }

  /** Filtering keeps everything exactly when every element satisfies `p`. */
  lemma {:induction false} FilterKeepsAll<T>(s: seq<T>, p: T -> bool)
    ensures Filter(s, p) == s <==> forall i :: 0 <= i < |s| ==> p(s[i])
  {
    if |s| > 0 {
      FilterKeepsAll(s[..|s| - 1], p);
      assert s[..|s| - 1] + [s[|s| - 1]] == s;
      if !p(s[|s| - 1]) {
        assert |Filter(s, p)| < |s| by {
          assert |Filter(s[..|s| - 1], p)| <= |s| - 1;
        }
      }
    }
  }

  /** `s.filter((_, i) => i !== index)`: every element whose position is not `index`. */
  function RemoveAt<T>(s: seq<T>, index: int): (r: seq<T>)
    ensures 0 <= index < |s| ==> r == s[..index] + s[index + 1..]
    ensures !(0 <= index < |s|) ==> r == s
  {
    if |s| == 0 then []
    else
      var front := RemoveAt(s[..|s| - 1], index);
      if index == |s| - 1 then front else front + [s[|s| - 1]]
  }

  /** `[...s, x]`: one element appended, the others unchanged. */
  function Append<T>(s: seq<T>, x: T): (r: seq<T>)
    ensures |r| == |s| + 1
    ensures r[..|s|] == s && r[|s|] == x
  {
    s + [x]
  }

  /** `updated = [...s]; updated[index] = x`: only position `index` changes. */
  function UpdateAt<T>(s: seq<T>, index: int, x: T): (r: seq<T>)
    requires 0 <= index < |s|
    ensures |r| == |s|
    ensures r[index] == x
    ensures forall i :: 0 <= i < |s| && i != index ==> r[i] == s[i]
  {
    s[index := x]
  }

  /** A non-empty sequence is its front followed by its last element. */
  lemma FrontAndLast<T>(xs: seq<T>)
    requires |xs| > 0
    ensures xs[..|xs| - 1] + [xs[|xs| - 1]] == xs
  {
  }

  /** The sum of a list of reals, added from the front as a running total does. */
  function Sum(xs: seq<real>): real {
    if |xs| == 0 then 0.0 else Sum(xs[..|xs| - 1]) + xs[|xs| - 1]
  }

  /** Scaling every summand by `f` scales the sum by `f`. */
  lemma {:induction false} SumScaled(xs: seq<real>, ys: seq<real>, f: real)
    requires |xs| == |ys|
    requires forall i :: 0 <= i < |xs| ==> ys[i] == f * xs[i]
    ensures Sum(ys) == f * Sum(xs)
  {
    if |xs| > 0 {
      var k := |xs| - 1;
      PrefixScaled(xs, ys, f, k);
      SumScaled(xs[..k], ys[..k], f);
      SumSnoc(xs);
      SumSnoc(ys);
      ScaledPair(Sum(ys), Sum(ys[..k]), ys[k], Sum(xs[..k]), xs[k], Sum(xs), f);
    }
  }

  /** Prefixes of pointwise scaled sequences are pointwise scaled. */
  lemma PrefixScaled(xs: seq<real>, ys: seq<real>, f: real, k: nat)
    requires k <= |xs| == |ys|
    requires forall i :: 0 <= i < |xs| ==> ys[i] == f * xs[i]
    ensures |xs[..k]| == |ys[..k]|
    ensures forall i :: 0 <= i < |xs[..k]| ==> ys[..k][i] == f * xs[..k][i]
  {
  }

  /** The sum of a non-empty sequence is the sum of its front plus its last element. */
  lemma SumSnoc(xs: seq<real>)
    requires |xs| > 0
    ensures Sum(xs) == Sum(xs[..|xs| - 1]) + xs[|xs| - 1]
  {
  }

  /** If both summands are scaled by `f`, so is their sum. */
  lemma ScaledPair(x: real, a': real, c': real, a: real, c: real, y: real, f: real)
    requires x == a' + c' && a' == f * a && c' == f * c && y == a + c
    ensures x == f * y
  {
  }
}

=== FILE: text.dfy ===
/** String operations of the JavaScript runtime the source relies on:
    `trim`, `endsWith`, `split` on one character and `join`. */
module Text {

  /** The code points `String.prototype.trim` removes: the WhiteSpace and
      LineTerminator characters of ECMAScript (section 12.2 and 12.3 of ECMA-262). */
  predicate IsWhitespace(c: char) {
    || c == '\t' || c == '\n' || c == '\U{000B}' || c == '\U{000C}' || c == '\r'
    || c == ' ' || c == '\U{00A0}' || c == '\U{1680}'
    || ('\U{2000}' <= c <= '\U{200A}')
    || c == '\U{2028}' || c == '\U{2029}' || c == '\U{202F}' || c == '\U{205F}'
    || c == '\U{3000}' || c == '\U{FEFF}'
  }

  /** Neither end of `s` is whitespace. */
  predicate IsTrimmed(s: string) {
    |s| == 0 || (!IsWhitespace(s[0]) && !IsWhitespace(s[|s| - 1]))
  }

  predicate AllWhitespace(s: string) {
    forall i :: 0 <= i < |s| ==> IsWhitespace(s[i])
  }

  /** Drops the leading whitespace of `s`. */
  function TrimStart(s: string): (r: string)
    ensures |r| <= |s| && r == s[|s| - |r|..]
    ensures AllWhitespace(s[..|s| - |r|])
    ensures |r| > 0 ==> !IsWhitespace(r[0])
  {
    if |s| > 0 && IsWhitespace(s[0]) then TrimStart(s[1..]) else s
  }

  /** Drops the trailing whitespace of `s`. */
  function TrimEnd(s: string): (r: string)
    ensures |r| <= |s| && r == s[..|r|]
    ensures AllWhitespace(s[|r|..])
    ensures |r| > 0 ==> !IsWhitespace(r[|r| - 1])
  {
    if |s| > 0 && IsWhitespace(s[|s| - 1]) then TrimEnd(s[..|s| - 1]) else s
  }

  /** How many leading characters `s.trim()` drops. */
  function LeadingWhitespace(s: string): (n: nat)
    ensures n <= |s|
  {
    |s| - |TrimStart(s)|
  }

  /** `s.trim()`: whitespace cut from both ends. */
  function Trim(s: string): (r: string)
    ensures |r| <= |s|
    ensures IsTrimmed(r)
    decreases |s|
  {
    if |s| > 0 && IsWhitespace(s[0]) then Trim(s[1..])
    else
      var r := TrimEnd(s);
      assert |r| > 0 ==> r[0] == s[0];
      r
  }

  /** Trimming is cutting the leading whitespace, then the trailing whitespace. */
  lemma {:induction false} TrimBothEnds(s: string)
    ensures Trim(s) == TrimEnd(TrimStart(s))
    decreases |s|
  {
    if |s| > 0 && IsWhitespace(s[0]) {
      TrimBothEnds(s[1..]);
    }
  }

  /** The trimmed string is a slice of `s`, starting after the leading whitespace. */
  lemma TrimIsSlice(s: string)
    ensures LeadingWhitespace(s) + |Trim(s)| <= |s|
    ensures Trim(s) == s[LeadingWhitespace(s)..LeadingWhitespace(s) + |Trim(s)|]
  {
    TrimPointwise(s);
    SliceFromPointwise(Trim(s), s, LeadingWhitespace(s));
  }

  /** Each character of the trimmed string is the character of `s` past the leading whitespace. */
  lemma TrimPointwise(s: string)
    ensures LeadingWhitespace(s) + |Trim(s)| <= |s|
    ensures forall k :: 0 <= k < |Trim(s)| ==> Trim(s)[k] == s[LeadingWhitespace(s) + k]
  {
    TrimBothEnds(s);
    TrimStartPointwise(s);
    TrimEndPointwise(TrimStart(s));
  }

  /** Each character left by `TrimStart` is the character of `s` past the leading whitespace. */
  lemma TrimStartPointwise(s: string)
    ensures forall k :: 0 <= k < |TrimStart(s)| ==> TrimStart(s)[k] == s[LeadingWhitespace(s) + k]
  {
  }

  /** Each character left by `TrimEnd` is the character of `s` at the same position. */
  lemma TrimEndPointwise(s: string)
    ensures forall k :: 0 <= k < |TrimEnd(s)| ==> TrimEnd(s)[k] == s[k]
  {
  }

  /** A sequence that agrees with `s` from `lead` on is that slice of `s`. */
  lemma SliceFromPointwise<T>(r: seq<T>, s: seq<T>, lead: nat)
    requires lead + |r| <= |s|
    requires forall k :: 0 <= k < |r| ==> r[k] == s[lead + k]
    ensures r == s[lead..lead + |r|]
  {
  }

  /** Only whitespace lies on either side of the trimmed slice. */
  lemma TrimCutsWhitespace(s: string)
    ensures LeadingWhitespace(s) + |Trim(s)| <= |s|
    ensures AllWhitespace(s[..LeadingWhitespace(s)])
    ensures AllWhitespace(s[LeadingWhitespace(s) + |Trim(s)|..])
  {
    LeadingIsWhitespace(s);
    TrimBothEnds(s);
    TrailingIsWhitespace(s);
  }

  /** What `trim` cuts in front is whitespace. */
  lemma LeadingIsWhitespace(s: string)
    ensures AllWhitespace(s[..LeadingWhitespace(s)])
  {
    var t := TrimStart(s);
    assert AllWhitespace(s[..|s| - |t|]);
  }

  /** What `TrimEnd` cuts from `TrimStart(s)` is whitespace at the end of `s`. */
  lemma TrailingIsWhitespace(s: string)
    ensures LeadingWhitespace(s) + |TrimEnd(TrimStart(s))| <= |s|
    ensures AllWhitespace(s[LeadingWhitespace(s) + |TrimEnd(TrimStart(s))|..])
  {
    WhitespaceTail(s, TrimStart(s), TrimEnd(TrimStart(s)), LeadingWhitespace(s));
  }

  /** A whitespace tail of a suffix of `s` is a whitespace tail of `s`. */
  lemma WhitespaceTail(s: string, t: string, e: string, lead: nat)
    requires lead + |t| == |s| && t == s[lead..]
    requires |e| <= |t| && AllWhitespace(t[|e|..])
    ensures lead + |e| <= |s|
    ensures AllWhitespace(s[lead + |e|..])
  {
    SliceOfSuffix(s, lead, |e|);
  }

  /** Slicing a suffix is slicing the whole. */
  lemma SliceOfSuffix<T>(s: seq<T>, i: nat, j: nat)
    requires i + j <= |s|
    ensures s[i..][..j] == s[i..i + j]
    ensures s[i..][j..] == s[i + j..]
  {
  }

  /** Trimming a string that is already trimmed changes nothing. */
  lemma TrimTrimmed(s: string)
    requires IsTrimmed(s)
    ensures Trim(s) == s
  {
  }

  /** Trimming is idempotent. */
  lemma TrimIdempotent(s: string)
    ensures Trim(Trim(s)) == Trim(s)
  {
    TrimTrimmed(Trim(s));
  }

  /** Whitespace added in front of a trimmed string is removed again. */
  lemma {:induction false} TrimPadded(pad: string, s: string)
    requires AllWhitespace(pad)
    requires IsTrimmed(s)
    ensures Trim(pad + s) == s
  {
    if |pad| > 0 {
      assert (pad + s)[1..] == pad[1..] + s;
      TrimPadded(pad[1..], s);
    }
  }

  /** `s.endsWith(suffix)`. */
  predicate EndsWith(s: string, suffix: string) {
    |suffix| <= |s| && forall i :: 0 <= i < |suffix| ==> s[|s| - |suffix| + i] == suffix[i]
  }

  /** The number of occurrences of `c` in `s`. */
  function Count(s: string, c: char): nat {
    if |s| == 0 then 0
    else Count(s[..|s| - 1], c) + (if s[|s| - 1] == c then 1 else 0)
  }

  /** `s.split(sep)` for a one-character separator: the maximal
      separator-free pieces of `s`, in order, including empty ones. */
  function Split(s: string, sep: char): (r: seq<string>)
    ensures |r| == Count(s, sep) + 1
    ensures forall i :: 0 <= i < |r| ==> sep !in r[i]
  {
    if |s| == 0 then [""]
    else
      var p := Split(s[..|s| - 1], sep);
      if s[|s| - 1] == sep then p + [""]
      else p[..|p| - 1] + [p[|p| - 1] + [s[|s| - 1]]]
  }

  /** `xs.join(sep)`. */
  function Join(xs: seq<string>, sep: string): string {
    if |xs| == 0 then ""
    else if |xs| == 1 then xs[0]
    else Join(xs[..|xs| - 1], sep) + sep + xs[|xs| - 1]
  }

  /** A string without the separator is a single piece. */
  lemma {:induction false} SplitSeparatorFree(s: string, sep: char)
    requires sep !in s
    ensures Split(s, sep) == [s]
  {
    if |s| > 0 {
      SplitSeparatorFree(s[..|s| - 1], sep);
      assert s[..|s| - 1] + [s[|s| - 1]] == s;
    }
  }

  /** A trailing separator opens a new, empty last piece. */
  lemma SplitSnocSeparator(s: string, sep: char)
    ensures Split(s + [sep], sep) == Split(s, sep) + [""]
  {
    assert (s + [sep])[..|s|] == s;
  }

  /** Any other trailing character extends the last piece. */
  lemma SplitSnocOther(s: string, c: char, sep: char)
    requires c != sep
    ensures var p := Split(s, sep);
            Split(s + [c], sep) == p[..|p| - 1] + [p[|p| - 1] + [c]]
  {
    assert (s + [c])[..|s|] == s;
  }

  /** Extending the last element of `pa + pb` extends the last element of `pb`. */
  lemma ExtendLast<T>(pa: seq<seq<T>>, pb: seq<seq<T>>, c: T)
    requires |pb| > 0
    ensures var p := pa + pb;
            p[..|p| - 1] + [p[|p| - 1] + [c]] == pa + (pb[..|pb| - 1] + [pb[|pb| - 1] + [c]])
  {
    var p := pa + pb;
    assert p[..|p| - 1] == pa + pb[..|pb| - 1];
  }

  /** Splitting distributes over a separator: the pieces of `a + sep + b`
      are the pieces of `a` followed by the pieces of `b`. */
  lemma {:induction false} SplitAtSeparator(a: string, sep: char, b: string)
    ensures Split(a + [sep] + b, sep) == Split(a, sep) + Split(b, sep)
  {
    if |b| == 0 {
      SplitSnocSeparator(a, sep);
      assert a + [sep] + b == a + [sep];
    } else {
      var b' := b[..|b| - 1];
      var c := b[|b| - 1];
      var s' := a + [sep] + b';
      assert a + [sep] + b == s' + [c];
      assert b == b' + [c];
      SplitAtSeparator(a, sep, b');
      if c == sep {
        SplitSnocSeparator(s', sep);
        SplitSnocSeparator(b', sep);
        assert Split(a, sep) + Split(b', sep) + [""] == Split(a, sep) + (Split(b', sep) + [""]);
      } else {
        SplitSnocOther(s', c, sep);
        SplitSnocOther(b', c, sep);
        ExtendLast(Split(a, sep), Split(b', sep), c);
      }
    }
  }

  /** Joining the pieces with the separator gives back the string. */
  lemma {:induction false} JoinSplit(s: string, sep: char)
    ensures Join(Split(s, sep), [sep]) == s
  {
    if |s| > 0 {
      var s' := s[..|s| - 1];
      var c := s[|s| - 1];
      JoinSplit(s', sep);
      assert s == s' + [c];
      if c == sep {
        SplitSnocSeparator(s', sep);
        JoinSnoc(Split(s', sep), "", [sep]);
      } else {
        SplitSnocOther(s', c, sep);
        JoinExtendLast(Split(s', sep), c, [sep]);
      }
    }
  }

  /** Joining one more piece appends the separator and the piece. */
  lemma JoinSnoc(p: seq<string>, x: string, sep: string)
    requires |p| > 0
    ensures Join(p + [x], sep) == Join(p, sep) + sep + x
  {
    assert (p + [x])[..|p|] == p;
  }

  /** Extending the last piece extends the join. */
  lemma JoinExtendLast(p: seq<string>, c: char, sep: string)
    requires |p| > 0
    ensures Join(p[..|p| - 1] + [p[|p| - 1] + [c]], sep) == Join(p, sep) + [c]
  {
    var k := |p| - 1;
    if k > 0 {
      JoinSnoc(p[..k], p[k] + [c], sep);
      JoinSnoc(p[..k], p[k], sep);
      assert p[..k] + [p[k]] == p;
    }
  }

  /** Splitting a join of separator-free pieces gives back the pieces. */
  lemma {:induction false} SplitJoin(xs: seq<string>, sep: char)
    requires |xs| > 0
    requires forall i :: 0 <= i < |xs| ==> sep !in xs[i]
    ensures Split(Join(xs, [sep]), sep) == xs
  {
    var x := xs[|xs| - 1];
    SplitSeparatorFree(x, sep);
    if |xs| > 1 {
      var front := xs[..|xs| - 1];
      SplitJoin(front, sep);
      SplitAtSeparator(Join(front, [sep]), sep, x);
      assert Join(front, [sep]) + [sep] + x == Join(xs, [sep]);
    }
  }
}

=== FILE: wrappers.dfy ===
/** Optional values and results with an error, shared by every module of the model. */
module Wrappers {

  /** A value that may be absent: JavaScript's `undefined` (or a falsy field) is `None`. */
  datatype Option<+T> = None | Some(value: T) {

    /** The value, or `default` when absent: the `x || default` idiom of the source. */
    function GetOr(default: T): T {
      match this
      case Some(v) => v
      case None => default
    }
  }

  /** The outcome of an operation that may fail with an error value. */
  datatype Result<+T, +E> = Ok(value: T) | Err(error: E)
}
